=== FILE: README.md ===
# Investment evaluation backend, modelled in Dafny

This project models the core of a small TypeScript/Express service that scores startup
submissions with a language model and keeps everything in an Azure blob container.

- **The two zod schemas.** The Intake form has twelve required strings, including an
  email and a URL. The Score Output document has an integer overall score, four category
  evaluations, a confidence, a summary, key risks, an enum next step and a pass flag.
  Both are modelled as pure validators. Each one returns the parsed value or the
  ordered list of issues zod would report.
- **`scoreDeal`.** One scoring call to the model. When that answer is non-empty but does
  not parse or validate, exactly one repair call follows.
- **The submission route `POST /score-investment`.** It validates, then stores
  `raw_input.json`. It then uploads the deck and runs text extraction (failure
  tolerated) and summarization (failure swallowed). It reads the deck summary back,
  scores, stores `score.json` and answers.
- **`extractPdfText`, `extractAndStoreDeckText` and its safe wrapper**, and
  **`summarizeDeck`**.
- **The read routes.** `GET /investments` lists the request folders, builds one row per
  readable folder with placeholder and fallback fields, and sorts newest first.
  `GET /investments/:requestId` finds the first folder whose name contains
  `_{id}/` and returns its two records.
- **The blob store.** A map from keys to JSON documents or binary blobs. The listing by
  hierarchy under `requests/` is related to the map by a predicate.

Everything outside the core is an input: the generated request id, the clock, the
language model (a sequence of replies), `JSON.parse` (a partial function from text to
values), the PDF parser, and zod's email and URL checks. Every operation is a pure
function that returns the writes it makes, in order. A store after a run is therefore
`ApplyAll(store, writes)`.

Modules, in dependency order:

| module | what |
|---|---|
| `Wrappers` | `Option`, `Result` |
| `Json` | JSON values, JavaScript property access (`.`, `?.`), truthiness, `\|\|`, `??`, `JSON.stringify` of a string |
| `Text` | the JavaScript string operations the routes use: `includes`, `replace`, `split`, `trim`, UTF-16 `length` |
| `Zod` | issues and the primitive zod checks |
| `ScoreOutputSchema`, `IntakeSchema` | the two schemas |
| `BlobStore` | the store, its writes, `readJSON`, `getBlobBuffer`, hierarchical listing, the UTF-8 bytes of a text upload |
| `Oracle` | a language-model reply: an answer or a failed call |
| `LlmScorer` | `scoreDeal` |
| `PdfExtractor`, `DeckSummarizer` | the two deck steps, and the summary upload as written |
| `ScoreInvestment` | the submission route |
| `RequestFolders` | folder names: how they are built and how the read routes take them apart |
| `GetInvestments`, `GetInvestmentById` | the read routes |
| `Lifecycle` | a scored submission seen through both read routes |

Three facts about the schemas shape the model:

- the Score Output schema does not check that `overall_score` is the sum of the
  categories, nor that `pass` agrees with the 13-point threshold;
- undeclared keys are dropped rather than rejected;
- category scores must be evaluation objects; bare integers are not accepted.

## Model

| member | source | states |
|---|---|---|
| IntakeSchema.Validate | src/schemas/intake.ts:3-16 | accepts exactly the conforming submissions: an object whose twelve fields are strings, with a valid email and URL. Success returns the twelve declared fields with other keys dropped; failure returns every issue, and there is at least one |
| IntakeSchema.ConformsIff | src/schemas/intake.ts:3-16 | for an object, conforming is the same as each of the twelve fields passing its own check |
| IntakeSchema.AcceptedFieldsVerbatim | src/schemas/intake.ts:3-16 | an accepted submission yields exactly the twelve declared keys, each the submitted string unchanged |
| IntakeSchema.IssuesNameFailingFields | src/schemas/intake.ts:3-16 | the paths of the reported issues are exactly the fields that are missing, not strings, or fail their check |
| IntakeSchema.MissingFieldRejected | src/schemas/intake.ts:4-15 | a missing declared field is rejected with a `Required` issue at that field |
| IntakeSchema.NonStringFieldRejected | src/schemas/intake.ts:4-15 | a declared field holding a non-string is rejected with an `InvalidType` issue at that field |
| IntakeSchema.BadEmailRejected | src/schemas/intake.ts:5 | a `founder_email` that fails the email check is rejected with an `InvalidEmail` issue |
| IntakeSchema.BadUrlRejected | src/schemas/intake.ts:15 | a `deck_url` that fails the URL check is rejected with an `InvalidUrl` issue |
| IntakeSchema.ValidateToValue | src/schemas/intake.ts:3-16 | an intake whose email and URL pass their checks validates, from the object it produces, back to itself |
| ScoreOutputSchema.Validate | src/schemas/scoreOutput.ts:10-26 | accepts exactly the conforming documents. Success returns a valid result equal to the input with undeclared keys stripped at both levels; failure returns every issue, and there is at least one |
| ScoreOutputSchema.CategoryIssues | src/schemas/scoreOutput.ts:4-8 | a category has no issue exactly when it is an object with an integer score in 0..5, a string reasoning and a string array of evidence, and every issue lies under the category's path |
| ScoreOutputSchema.BuildIsStrip | src/schemas/scoreOutput.ts:10-26 | the result built from a conforming document serialises to the document with undeclared keys removed |
| ScoreOutputSchema.ValidateToValue | src/schemas/scoreOutput.ts:10-26 | a valid result validates again to itself |
| ScoreOutputSchema.ValidateIdempotent | src/schemas/scoreOutput.ts:10-26 | re-validating an accepted result gives the same result |
| ScoreOutputSchema.BareCategoryScoresRejected | src/schemas/scoreOutput.ts:14-19 | a category given as a bare number is rejected, with an `InvalidType` issue at that category |
| ScoreOutputSchema.OverallScoreOutOfRangeRejected | src/schemas/scoreOutput.ts:11 | an `overall_score` below 0, above 20 or not an integer is rejected |
| ScoreOutputSchema.ConfidenceOutOfRangeRejected | src/schemas/scoreOutput.ts:21 | a `confidence` outside [0, 1] is rejected with `TooSmall` or `TooBig` at `confidence` |
| ScoreOutputSchema.UnknownNextStepRejected | src/schemas/scoreOutput.ts:24 | a `recommended_next_step` other than the three enum values is rejected |
| ScoreOutputSchema.InconsistentDocumentAccepted | src/schemas/scoreOutput.ts:10-26 | some accepted document has an overall score that is not the category sum and a `pass` that contradicts the 13-point rule |
| LlmScorer.ParseScore | src/services/llmScorer.ts:97-98 | succeeds exactly when the text parses as JSON and conforms; the result is the schema's result and is valid |
| LlmScorer.ScoreDeal | src/services/llmScorer.ts:55-107 | one or two calls. The first is the scoring prompt for this submission, showing the system prompt's example with bare-integer categories. A second call, the repair prompt quoting the first answer and showing the type sketch with `number` categories, is made exactly when that answer is non-empty and fails to parse or validate. Any returned score is valid |
| LlmScorer.EmptyFirstReplyFails | src/services/llmScorer.ts:91-94 | an empty first answer fails with the empty-response error (`Empty Gemini response`) after one call, with no repair call |
| LlmScorer.FirstReplyAccepted | src/services/llmScorer.ts:96-98 | a first answer that parses and validates is returned after exactly one call |
| LlmScorer.RepairAnswerIsFinal | src/services/llmScorer.ts:99-106 | after a repair call the outcome is the repair answer's parse, failure included; there is no third attempt |
| LlmScorer.AtMostTwoCalls | src/services/llmScorer.ts:83-107 | the result depends only on the first two replies |
| LlmScorer.ScoringSucceedsIff | src/services/llmScorer.ts:83-107 | scoring succeeds exactly when the first answer, or else the repair answer, parses to a conforming document |
| LlmScorer.ReturnedScoreConforms | src/services/llmScorer.ts:98 | any returned score serialises to a conforming document that validates back to it |
| LlmScorer.ResponseFormatAsWrittenRejected | src/services/llmScorer.ts:33-49 | the output example written in the system prompt is rejected by the schema |
| LlmScorer.FollowingWrittenFormatFails | src/services/llmScorer.ts:33-49 | a model that answers both calls with the prompt's own example never gets a score accepted, after two calls |
| LlmScorer.ResponseFormatAccepted | src/schemas/scoreOutput.ts:10-26 | the corrected example, with categories as evaluation objects, validates to the example score |
| LlmScorer.SentFormatsShowBareCategories | src/services/llmScorer.ts:33-81 | neither prompt ever sent shows category scores as evaluation objects: the scoring prompt's example has `"market": 4`, the repair prompt's sketch has `"market": number` |
| LlmScorer.CorrectedFormatsShowObjects | src/schemas/scoreOutput.ts:14-19 | the corrected example and the corrected repair sketch both show the categories as evaluation objects, as the schema demands |
| BlobStore.ApplyAll | src/services/blobStore.ts:13-25 | after the writes a key is present exactly when it was present or written; untouched keys keep their blob; the last write wins |
| BlobStore.PutJson | src/services/blobStore.ts:13-25 | whatever the store, the written key then reads back as the body |
| BlobStore.UploadBlob | src/services/blobStore.ts:28-44 | whatever the store, the written key then holds the bytes under the content type, and `getBlobBuffer` returns the bytes |
| BlobStore.WrittenOnce | src/services/blobStore.ts:13-25 | a key written by exactly one write holds that write's blob afterwards |
| BlobStore.ReadJson | src/services/blobStore.ts:58-63 | succeeds exactly on a key holding a JSON document, and returns that document |
| BlobStore.GetBlobBuffer | src/services/blobStore.ts:79-89 | succeeds exactly on a key holding a binary blob, and returns its bytes |
| BlobStore.ReadAfterPut | src/services/blobStore.ts:13-25 | reading a key just written returns the body written; other keys read as before |
| BlobStore.UploadStoresBytes | src/services/blobStore.ts:28-44 | an upload stores exactly the given bytes, typed `application/pdf`, readable back by `getBlobBuffer`; other keys are unchanged |
| BlobStore.ListRequestFolders | src/services/blobStore.ts:65-77 | keeps exactly the folder entries of the listing, and no more entries than the listing has |
| BlobStore.ListRequestFoldersConcat | src/services/blobStore.ts:65-77 | folder order follows listing order: the folders of two listings joined are the two folder lists joined |
| BlobStore.FolderListed | src/services/blobStore.ts:65-77 | any stored key `requests/{f}/...` with `f` free of `/` puts `requests/{f}/` among the listed folders |
| BlobStore.ListedFolderShape | src/services/blobStore.ts:65-77 | every listed folder is `requests/`, one `/`-free segment, and `/`, and some stored key lies inside it |
| PdfExtractor.ExtractPdfText | src/services/pdfExtractor.ts:5-39 | succeeds exactly when the blob can be read and the parser accepts its bytes; the text is the parser's text, or "" when it has none |
| PdfExtractor.ExtractAndStoreDeckText | src/services/pdfExtractor.ts:41-62 | on success, one write (the payload at `deck_text.json`) and the text key is returned; on failure nothing is written and the error is the extraction's own, rethrown |
| PdfExtractor.ExtractAndStoreDeckTextSafe | src/services/pdfExtractor.ts:65-72 | the text key exactly when extraction succeeds, otherwise no key; the same writes as the unsafe version, so none on failure and one at the text key on success |
| PdfExtractor.StoredLengthMatchesText | src/services/pdfExtractor.ts:50-54 | the stored `length` is the UTF-16 length of the stored `text` |
| PdfExtractor.MissingTextStoredEmpty | src/services/pdfExtractor.ts:34 | a parse with no text stores and reports the empty text |
| DeckSummarizer.UsableText | src/services/summarizeDeck.ts:36-65 | a text is used exactly when `deck_text.json` reads as JSON and its `text` is a string that is not blank after trimming, and the text used is that string |
| DeckSummarizer.SummarizeDeck | src/services/summarizeDeck.ts:13-118 | a summary exactly when there is usable text and the model answers. It returns that answer with one write, the summary document at `deck_summary.json`; otherwise nothing is written and nothing is returned. This is the corrected upload, which stores the whole payload |
| DeckSummarizer.BlankTextNotSummarized | src/services/summarizeDeck.ts:63-65 | whitespace-only extracted text leads to no write and no summary |
| DeckSummarizer.EmptySummaryStored | src/services/summarizeDeck.ts:89-114 | the model's answer is not checked: an empty summary is stored and returned |
| DeckSummarizer.StoredSummaryIsReturned | src/services/summarizeDeck.ts:98-114 | with the corrected upload, the stored summary document holds the very summary returned |
| DeckSummarizer.PrettySummaryNineBytesLonger | src/services/summarizeDeck.ts:102-110 | whatever the summary, `JSON.stringify(payload, null, 2)` is nine UTF-8 bytes longer than `JSON.stringify(payload)`, and its last two bytes are the line break and the closing `}` |
| DeckSummarizer.TruncatedSummaryBytes | src/services/summarizeDeck.ts:107-110 | the stored bytes number `Buffer.byteLength` of the compact text, nine fewer than the pretty text sent, and are that text's first bytes |
| DeckSummarizer.SummarizeDeckAsWritten | src/services/summarizeDeck.ts:36-118 | the upload as written: the same decisions and returned summary as `SummarizeDeck`, but `deck_summary.json` receives the cut bytes under the default content type |
| ScoreInvestment.DeckSteps | src/routes/scoreInvestment.ts:44-55 | a deck path exactly when a file is attached. The upload comes first. A text key exists exactly when the parser accepts the attached bytes. No file means no writes. Every write is a deck key, and there are at most three |
| ScoreInvestment.DeckStepsWrites | src/routes/scoreInvestment.ts:44-55 | after a successful extraction the second write stores the extracted text at `deck_text.json`. `deck_summary.json` is written exactly when the summarizer answers and the text is not blank: the text just extracted, or else whatever `deck_text.json` already held |
| ScoreInvestment.SummaryAsWrittenUnreadable | src/routes/scoreInvestment.ts:57-67 | after the upload as written, the route's read of `deck_summary.json` fails |
| ScoreInvestment.SummaryReadBack | src/routes/scoreInvestment.ts:57-67 | after the corrected upload, the route's read returns the very summary stored |
| ScoreInvestment.ReadDeckSummary | src/routes/scoreInvestment.ts:57-67 | no read when extraction returned no key. With a key, the read fails exactly when `deck_summary.json` cannot be read as JSON or holds `null`; otherwise it returns the stored document's `summary` |
| ScoreInvestment.Accepted | src/routes/scoreInvestment.ts:28-99 | the raw input is the first write. The answer is a score exactly when scoring succeeds, and the score is then the last write. A failed scoring answers with the scorer's error |
| ScoreInvestment.ScoreInvestment | src/routes/scoreInvestment.ts:18-126 | an invalid form writes nothing and is rejected with its issues. A valid one proceeds as `Accepted` with the scorer's outcome for that intake. The status is 200 exactly when the form is valid and scoring succeeds, 400 otherwise. The request id is always echoed |
| ScoreInvestment.WritesStayInFolder | src/routes/scoreInvestment.ts:28-81 | every write goes to one of the five keys of the submission's folder |
| ScoreInvestment.OtherKeysUnchanged | src/routes/scoreInvestment.ts:28-81 | any key outside the folder's five is untouched by a run |
| ScoreInvestment.SummaryReadOnlyWithTextKey | src/routes/scoreInvestment.ts:57-67 | `deck_summary.json` is read exactly when a deck was attached and the parser accepted it |
| ScoreInvestment.SummaryNeedsExtractedText | src/routes/scoreInvestment.ts:53-54 | when `deck_text.json` is absent before the deck steps and extraction returns no key, no deck summary is written |
| ScoreInvestment.AcceptedSummaryNeedsExtractedText | src/routes/scoreInvestment.ts:28-67 | in a fresh folder, a run that writes `deck_summary.json` also reads it back, so extraction returned the text key |
| ScoreInvestment.BlobPathsAssembly | src/routes/scoreInvestment.ts:86-97 | `blob_paths` always has `input` and `output`; it has `deck` exactly when a file was attached and `deck_text` exactly when extraction returned a key |
| ScoreInvestment.ScoreWrittenIffScored | src/routes/scoreInvestment.ts:73-81 | `score.json` is written exactly when the answer is a score |
| ScoreInvestment.DeckWrittenIffAttached | src/routes/scoreInvestment.ts:44-48 | `raw_deck.pdf` is written exactly when a file is attached |
| ScoreInvestment.InputWrittenOnce | src/routes/scoreInvestment.ts:32-81 | no later write of a run goes to `raw_input.json`: the deck steps and the score write use other keys |
| ScoreInvestment.StoredRecordsMatchResponse | src/routes/scoreInvestment.ts:32-36 | after a scored run, `raw_input.json` reads back as the raw input document and `score.json` as the score document, whose `score` is the answered score |
| ScoreInvestment.ResponseIgnoresDeckSummary | src/routes/scoreInvestment.ts:57-73 | the summarizer's answer and timing never change the response |
| ScoreInvestment.ScoreIgnoresDeck | src/routes/scoreInvestment.ts:73 | with the same form and scorer replies, the scoring outcome is the same whatever deck, parser or summarizer answer |
| RequestFolders.ParseFolder | src/routes/getInvestments.ts:20-21 | with `requests/` removed once and one trailing `/` dropped, the timestamp is the text before the first `_` (all of it when there is none). An id is present exactly when there is a `_`, and it is the `_`-delimited segment that follows |
| RequestFolders.FolderParts | src/routes/getInvestments.ts:21 | at least one part, none holding `_`, and the parts joined by `_` give back the trimmed name |
| RequestFolders.FolderRoundTrip | src/routes/getInvestments.ts:20-21 | the folder the submission route writes parses back to its timestamp and id when both are `_`-free |
| RequestFolders.FolderMatchIff | src/routes/getInvestmentById.ts:12-14 | for a folder written with `_`-free parts and a `/`-free id, it contains `_{id}/` exactly when `id` is its own id |
| GetInvestments.SummaryOf | src/routes/getInvestments.ts:16-47 | a row exactly when both records read and neither is `null`. Its timestamp and id come from the folder name |
| GetInvestments.Collect | src/routes/getInvestments.ts:16-47 | every row comes from a listed folder, every readable folder gives a row, and there are no more rows than folders |
| GetInvestments.CollectConcat | src/routes/getInvestments.ts:16-47 | folders are handled independently and in order |
| GetInvestments.SortDescending | src/routes/getInvestments.ts:50-52 | the result is a permutation of the rows, ordered newest first |
| GetInvestments.SortIsStable | src/routes/getInvestments.ts:50-52 | rows with equal timestamps keep their listing order |
| GetInvestments.SortKeepsSorted | src/routes/getInvestments.ts:50-52 | rows already newest first are left unchanged |
| GetInvestments.GetInvestments | src/routes/getInvestments.ts:6-60 | a listing failure, and only that, gives status 500. Otherwise the rows are the collected rows, as a multiset, newest first |
| GetInvestments.ReadableFolderListed | src/routes/getInvestments.ts:16-52 | every listed folder whose records read shows up as a row |
| GetInvestments.PlaceholderNames | src/routes/getInvestments.ts:33-34 | a missing or falsy startup name or industry shows "Unknown Startup" or "N/A"; a truthy name or industry is shown as stored |
| GetInvestments.WrappedScoreUsed | src/routes/getInvestments.ts:36-37 | a score record wrapped as `{score: {...}}` supplies the wrapped `overall_score` and `pass` |
| GetInvestments.BareScoreUsed | src/routes/getInvestments.ts:36-37 | a bare score record supplies its own top-level `overall_score` and `pass` |
| GetInvestments.MixedScoreUsed | src/routes/getInvestments.ts:36-37 | a wrapped record lacking `overall_score` and `pass` falls back to the top-level fields |
| GetInvestments.ScoreDefaults | src/routes/getInvestments.ts:36-37 | with each field missing or `null` in both places, the row shows 0 and `false` |
| GetInvestmentById.FindFolder | src/routes/getInvestmentById.ts:12-14 | the first folder containing the pattern, or none exactly when no folder contains it |
| GetInvestmentById.GetInvestmentById | src/routes/getInvestmentById.ts:6-41 | 404 exactly when listing succeeded and no folder contains `_{id}/`. A detail echoes the id, takes the timestamp from the first matching folder, and holds that folder's two records as read. 500 exactly on a listing failure or when a record of the first matching folder cannot be read. The status codes follow the three answers |
| GetInvestmentById.MissingRecordFails | src/routes/getInvestmentById.ts:23-40 | a matched folder with a record missing answers 500; the route never moves on to a later folder |
| Lifecycle.ScoredRunStored | src/routes/scoreInvestment.ts:28-81 | a scored submission leaves its raw input and score documents under its own folder |
| Lifecycle.RowOfStoredRecords | src/routes/getInvestments.ts:20-37 | the records a submission stores give back its row: id, timestamp, name and industry (or their placeholders), score and pass |
| Lifecycle.SubmittedDealListed | src/routes/getInvestments.ts:16-52 | after a scored submission, the investments list contains its row |
| Lifecycle.SubmittedDealFound | src/routes/getInvestmentById.ts:6-36 | after a scored submission, asking for its id returns both records exactly as stored, provided no other listed folder contains `_{id}/` |
| Text.SplitJoin | src/routes/getInvestments.ts:21 | `split` on a one-character separator undoes joining separator-free parts |
| Text.RemoveFirst | src/routes/getInvestments.ts:20 | without the pattern the text is unchanged; otherwise the first occurrence, wherever it is, is cut out and nothing else |
| Text.DropTrailingSlash | src/routes/getInvestments.ts:20 | exactly one trailing `/` is removed when there is one; otherwise the text is unchanged |
| Text.TrimEmptyIffBlank | src/services/summarizeDeck.ts:63 | `trim()` is empty exactly when every character is ECMAScript whitespace |
| Text.Utf16Length | src/services/pdfExtractor.ts:52 | the UTF-16 length is at least the number of characters, at most twice it, and equal to it for text inside the Basic Multilingual Plane |

## Left out

- Slack notification, the upload middleware, configuration, server start-up: not part of the core; the notification runs after the answer is sent and cannot change it.
- Network and SDK failures of store writes (`putJSON`, `uploadBlob`): every write succeeds in the model. Reads fail on a missing key.
- `readJSON` and `getBlobBuffer` download any blob. The model keeps JSON documents and binary blobs apart, so `ReadJson` of an uploaded deck and `GetBlobBuffer` of a JSON document fail instead of returning the parse or the bytes. The routes never read a key of the other kind.
- `BlobStore.IsHierarchyListing`: the order of the service's listing is left open; the listing is stated as every child of the prefix, each once.
- `JSON.stringify` and `JSON.parse` of stored documents are taken as exact inverses, so a stored document is a JSON value. The model's answers are parsed by the `parseJson` input.
- zod's email and URL regular expressions: parameters (`Checks`).
- The PDF library: the parser is a parameter from bytes to "threw" or "parsed, maybe with text". That `parser.destroy()` runs only on the success path has no observable effect here.
- The URL returned by `uploadBlob`: the route never uses it.
- `summarizeDeck` opens its own client on the hard-coded container `investment-evaluation`. The model assumes this is the same container the rest of the service uses.
- DeckSummarizer.StoredSummaryIsReturned: holds for the corrected upload only. As written, the upload declares nine bytes fewer than it sends (see Findings). The rest of the model, the submission route included, uses the corrected upload. What the HTTP client and the blob service do with a body longer than its declared length is not modelled. `SummarizeDeckAsWritten` takes the case where the declared length is stored; if the upload is refused instead, the summarizer's catch returns nothing and writes nothing, and the route's read fails either way.
- The language-model prompts' wording. A prompt keeps only what it shows of the response format (the system prompt's example document, or the repair prompt's type sketch reduced to how it shows the categories) and, for the repair prompt, the quoted previous answer.
- `GetInvestments.GetInvestments`: the listing is a whole (`Some` listing or `None` for a failure), so a failure in the middle of iterating is not separated from one at the start.
- `GetInvestments.GetInvestments`: the sort key is a parameter `instant` from timestamp text to an integer. `Date` parsing and `NaN` comparisons are not modelled; the sort is stated as a stable insertion sort by that key.
- The `deckSummary` read in the submission route is modelled (`SummaryRead`), but its value is never used afterwards, and `ResponseIgnoresDeckSummary` states that it has no effect.
- Error messages of the 400 answer: `Rejection` keeps the zod issues or the scorer's error kind, not the message text.
- `Lifecycle.SubmittedDealFound` assumes no other listed folder contains `_{id}/`. `RequestFolders.FolderMatchIff` shows this holds for folders written with other ids.

## Findings

| source | as written | input that shows it | evidently intended | confidence | as-written member | corrected member |
|---|---|---|---|---|---|---|
| src/services/llmScorer.ts:33-81 | the output example in the system prompt gives each category score as a bare integer (`"market": 4`), and the repair prompt's format shows `"market": number`, while the schema in src/schemas/scoreOutput.ts:14-19 demands an object with `score`, `reasoning` and `evidence` | a model that answers both calls with the example verbatim: both answers fail validation and the submission is rejected | both prompts show each category as an evaluation object, which the schema accepts | not executed | LlmScorer.ResponseFormatAsWrittenRejected, LlmScorer.SentFormatsShowBareCategories | LlmScorer.ResponseFormatAccepted, LlmScorer.CorrectedFormatsShowObjects |
| src/services/summarizeDeck.ts:107-110 | the summary is uploaded as `JSON.stringify(payload, null, 2)` with the length `Buffer.byteLength(JSON.stringify(payload))`, nine bytes less than the text sent | any answered summary: the declared length drops the last nine bytes, the closing `}` among them, so `deck_summary.json` is not a JSON document and the route's read of it fails | the upload declares the byte length of the text it sends, so the stored document reads back as the payload | not executed | DeckSummarizer.SummarizeDeckAsWritten, DeckSummarizer.PrettySummaryNineBytesLonger, ScoreInvestment.SummaryAsWrittenUnreadable | DeckSummarizer.SummarizeDeck, ScoreInvestment.SummaryReadBack |

=== FILE: blob_store.dfy ===
/**
  The record store: blob keys mapped to blobs, written whole and read back whole,
  plus the hierarchical listing under `requests/` with `/` as the delimiter.
  A JSON blob holds the value that was serialised (`JSON.stringify` followed by
  `JSON.parse` gives back any JSON value), a binary blob its bytes and content type.
 */
module BlobStore {
  import opened Wrappers
  import opened Json
  import opened Text

  newtype byte = x: int | 0 <= x < 256

  datatype Blob = JsonBlob(doc: Value) | BinaryBlob(data: seq<byte>, contentType: string)

  type Store = map<string, Blob>

  /** One upload: the whole blob at `key` is replaced. */
  datatype Write = Write(key: string, blob: Blob)

  datatype StoreError = NotFound(key: string) | NotJson(key: string) | NotBinary(key: string)

  const RequestsPrefix: string := "requests/"
  const PdfContentType: string := "application/pdf"

  function Apply(s: Store, w: Write): (r: Store)
    ensures r.Keys == s.Keys + {w.key}
    ensures r[w.key] == w.blob
    ensures forall k :: k in s && k != w.key ==> r[k] == s[k]
  {
    s[w.key := w.blob]
  }

  predicate Written(ws: seq<Write>, key: string) {
    exists i :: 0 <= i < |ws| && ws[i].key == key
  }

  lemma WrittenConcat(a: seq<Write>, b: seq<Write>, key: string)
    ensures Written(a + b, key) <==> Written(a, key) || Written(b, key)
  {
    if Written(a + b, key) {
      var i :| 0 <= i < |a + b| && (a + b)[i].key == key;
      if i >= |a| {
        assert b[i - |a|].key == key;
      }
    }
    if Written(a, key) {
      var i :| 0 <= i < |a| && a[i].key == key;
      assert (a + b)[i].key == key;
    }
    if Written(b, key) {
      var i :| 0 <= i < |b| && b[i].key == key;
      assert (a + b)[|a| + i].key == key;
    }
  }

  lemma NotWritten(ws: seq<Write>, key: string)
    requires forall w :: w in ws ==> w.key != key
    ensures !Written(ws, key)
  {
    forall i | 0 <= i < |ws| ensures ws[i].key != key {
      assert ws[i] in ws;
    }
  }

  /** The store after the writes, applied in order. */
  function ApplyAll(s: Store, ws: seq<Write>): (r: Store)
    ensures forall k :: k in r <==> k in s || Written(ws, k)
    ensures forall k :: k in s && !Written(ws, k) ==> r[k] == s[k]
    ensures |ws| > 0 ==> ws[|ws| - 1].key in r && r[ws[|ws| - 1].key] == ws[|ws| - 1].blob
  {
    if ws == [] then s
    else
      var before := ApplyAll(s, ws[..|ws| - 1]);
      assert forall k :: Written(ws, k) <==> Written(ws[..|ws| - 1], k) || k == ws[|ws| - 1].key by {
        forall k | Written(ws, k) ensures Written(ws[..|ws| - 1], k) || k == ws[|ws| - 1].key {
          var i :| 0 <= i < |ws| && ws[i].key == k;
          if i < |ws| - 1 { assert ws[..|ws| - 1][i] == ws[i]; }
        }
        forall k | Written(ws[..|ws| - 1], k) ensures Written(ws, k) {
          var i :| 0 <= i < |ws| - 1 && ws[..|ws| - 1][i].key == k;
          assert ws[i].key == k;
        }
      }
      Apply(before, ws[|ws| - 1])
  }

  /** Applying `a` then `b` is applying `a + b`. */
  lemma {:induction false} ApplyAllConcat(s: Store, a: seq<Write>, b: seq<Write>)
    ensures ApplyAll(s, a + b) == ApplyAll(ApplyAll(s, a), b)
    decreases |b|
  {
    if b == [] {
      assert a + b == a;
    } else {
      assert (a + b)[..|a + b| - 1] == a + b[..|b| - 1];
      assert (a + b)[|a + b| - 1] == b[|b| - 1];
      ApplyAllConcat(s, a, b[..|b| - 1]);
    }
  }

  /** A key written exactly once holds what that write put there. */
  lemma {:induction false} WrittenOnce(s: Store, ws: seq<Write>, i: nat)
    requires i < |ws|
    requires forall j :: 0 <= j < |ws| && j != i ==> ws[j].key != ws[i].key
    ensures ws[i].key in ApplyAll(s, ws) && ApplyAll(s, ws)[ws[i].key] == ws[i].blob
  {
    if i < |ws| - 1 {
      var init := ws[..|ws| - 1];
      assert forall j :: 0 <= j < |init| && j != i ==> init[j].key != init[i].key;
      WrittenOnce(s, init, i);
    }
  }

  /** `putJSON(path, body)`. */
  function PutJson(path: string, body: Value): (w: Write)
    ensures forall s :: ReadJson(Apply(s, w), path) == Success(body)
  {
    Write(path, JsonBlob(body))
  }

  /** `uploadBlob(path, data, contentType)`, with the source's default content type. */
  function UploadBlob(path: string, data: seq<byte>, contentType: string := PdfContentType): (w: Write)
    ensures forall s :: GetBlobBuffer(Apply(s, w), path) == Success(data)
    ensures forall s :: path in Apply(s, w) && Apply(s, w)[path] == BinaryBlob(data, contentType)
  {
    Write(path, BinaryBlob(data, contentType))
  }

  /** `readJSON(path)`: fails when the blob is absent or is not a JSON document. */
  function ReadJson(s: Store, path: string): (r: Result<Value, StoreError>)
    ensures r.Success? <==> path in s && s[path].JsonBlob?
    ensures r.Success? ==> r.value == s[path].doc
  {
    if path !in s then Failure(NotFound(path))
    else match s[path]
      case JsonBlob(doc) => Success(doc)
      case BinaryBlob(_, _) => Failure(NotJson(path))
  }

  /** `getBlobBuffer(path)`: the bytes of a binary blob. */
  function GetBlobBuffer(s: Store, path: string): (r: Result<seq<byte>, StoreError>)
    ensures r.Success? <==> path in s && s[path].BinaryBlob?
    ensures r.Success? ==> r.value == s[path].data
  {
    if path !in s then Failure(NotFound(path))
    else match s[path]
      case BinaryBlob(data, _) => Success(data)
      case JsonBlob(_) => Failure(NotBinary(path))
  }

  /** Reading a JSON blob back gives the value written, and no other key changes. */
  lemma ReadAfterPut(s: Store, path: string, body: Value)
    ensures ReadJson(Apply(s, PutJson(path, body)), path) == Success(body)
    ensures forall k :: k != path ==> ReadJson(Apply(s, PutJson(path, body)), k) == ReadJson(s, k)
  {
  }

  /** An upload stores exactly the given bytes under the given content type, application/pdf when none is given. */
  lemma UploadStoresBytes(s: Store, path: string, data: seq<byte>)
    ensures Apply(s, UploadBlob(path, data))[path] == BinaryBlob(data, "application/pdf")
    ensures GetBlobBuffer(Apply(s, UploadBlob(path, data)), path) == Success(data)
    ensures forall k :: k != path && k in s ==> Apply(s, UploadBlob(path, data))[k] == s[k]
  {
  }

  // ---------------------------------------------------------------------------
  // Text uploads
  // ---------------------------------------------------------------------------

  /** The content type a blob gets when an upload sets none. */
  const OctetStreamContentType: string := "application/octet-stream"

  /** `Buffer.from(s)`: the UTF-8 encoding of a string; `Buffer.byteLength(s)` is its length. */
  function Utf8(s: string): (r: seq<byte>)
    ensures |s| <= |r| <= 4 * |s|
  {
    if |s| == 0 then [] else Utf8Char(s[0]) + Utf8(s[1..])
  }

  /** The one to four bytes of one character. */
  function Utf8Char(c: char): (r: seq<byte>)
    ensures 1 <= |r| <= 4
    ensures c as int < 0x80 ==> r == [c as int as byte]
    ensures c as int >= 0x80 ==> |r| >= 2
  {
    var n := c as int;
    if n < 0x80 then [n as byte]
    else if n < 0x800 then [(0xC0 + n / 0x40) as byte, (0x80 + n % 0x40) as byte]
    else if n < 0x1_0000 then
      [(0xE0 + n / 0x1000) as byte, (0x80 + n / 0x40 % 0x40) as byte, (0x80 + n % 0x40) as byte]
    else
      [(0xF0 + n / 0x4_0000) as byte, (0x80 + n / 0x1000 % 0x40) as byte,
       (0x80 + n / 0x40 % 0x40) as byte, (0x80 + n % 0x40) as byte]
  }

  /** Encoding distributes over concatenation. */
  lemma {:induction false} Utf8Concat(a: string, b: string)
    ensures Utf8(a + b) == Utf8(a) + Utf8(b)
  {
    if |a| > 0 {
      assert (a + b)[1..] == a[1..] + b;
      Utf8Concat(a[1..], b);
    } else {
      assert a + b == b;
    }
  }

  // ---------------------------------------------------------------------------
  // Hierarchical listing
  // ---------------------------------------------------------------------------

  /** An entry of `listBlobsByHierarchy('/', {prefix})`: a blob directly under the prefix, or a virtual folder. */
  datatype ListItem = BlobItem(name: string) | PrefixItem(name: string)

  /** The entry a key contributes to the listing under `prefix`: the path up to and including the next `/`, if any. */
  function ChildOf(prefix: string, key: string): ListItem
    requires StartsWith(key, prefix)
  {
    var rest := key[|prefix|..];
    if '/' in rest then PrefixItem(prefix + rest[..CharIndex(rest, '/') + 1]) else BlobItem(key)
  }

  function Children(s: Store, prefix: string): set<ListItem> {
    set k | k in s && StartsWith(k, prefix) :: ChildOf(prefix, k)
  }

  /**
    `items` is the store's listing under `prefix`: every child, each once. The order
    of the entries is the service's and is left open.
   */
  predicate IsHierarchyListing(s: Store, prefix: string, items: seq<ListItem>) {
    && (forall i, j :: 0 <= i < j < |items| ==> items[i] != items[j])
    && (forall i :: 0 <= i < |items| ==> items[i] in Children(s, prefix))
    && (forall c :: c in Children(s, prefix) ==> c in items)
  }

  /** `listRequestFolders`: the folder entries of the listing, in listing order; plain blobs are skipped. */
  function ListRequestFolders(items: seq<ListItem>): (r: seq<string>)
    ensures forall f :: f in r <==> PrefixItem(f) in items
    ensures |r| <= |items|
  {
    if items == [] then []
    else
      var rest := ListRequestFolders(items[1..]);
      assert forall f :: PrefixItem(f) in items <==> items[0] == PrefixItem(f) || PrefixItem(f) in items[1..] by {
        assert items == [items[0]] + items[1..];
      }
      if items[0].PrefixItem? then [items[0].name] + rest else rest
  }

  /** The folder list of a concatenated listing is the concatenation of the folder lists: order is kept, nothing is sorted. */
  lemma {:induction false} ListRequestFoldersConcat(a: seq<ListItem>, b: seq<ListItem>)
    ensures ListRequestFolders(a + b) == ListRequestFolders(a) + ListRequestFolders(b)
  {
    if a != [] {
      assert (a + b)[1..] == a[1..] + b;
      assert (a + b)[0] == a[0];
      ListRequestFoldersConcat(a[1..], b);
    } else {
      assert a + b == b;
    }
  }

  /** Every key `requests/{f}/...` with no `/` in `f` makes `requests/{f}/` appear among the listed folders. */
  lemma FolderListed(s: Store, items: seq<ListItem>, f: string, name: string)
    requires IsHierarchyListing(s, RequestsPrefix, items)
    requires '/' !in f
    requires RequestsPrefix + f + "/" + name in s
    ensures RequestsPrefix + f + "/" in ListRequestFolders(items)
  {
    var key := RequestsPrefix + f + "/" + name;
    SegmentChild(RequestsPrefix, f, name);
    assert ChildOf(RequestsPrefix, key) in Children(s, RequestsPrefix);
  }

  /** A key one segment below the prefix contributes that segment's folder. */
  lemma SegmentChild(prefix: string, f: string, name: string)
    requires '/' !in f
    ensures StartsWith(prefix + f + "/" + name, prefix)
    ensures ChildOf(prefix, prefix + f + "/" + name) == PrefixItem(prefix + f + "/")
  {
    var key := prefix + f + "/" + name;
    var rest := key[|prefix|..];
    assert key[..|prefix|] == prefix;
    assert rest == f + "/" + name;
    assert rest[..|f|] == f;
    CharIndexAt(rest, '/', |f|);
    assert rest[..|f| + 1] == f + "/";
  }

  /** Every listed folder is `requests/` followed by one path segment and `/`, and some stored key lies inside it. */
  lemma ListedFolderShape(s: Store, items: seq<ListItem>, folder: string)
    requires IsHierarchyListing(s, RequestsPrefix, items)
    requires folder in ListRequestFolders(items)
    ensures StartsWith(folder, RequestsPrefix) && |folder| > |RequestsPrefix|
    ensures folder[|folder| - 1] == '/' && '/' !in folder[|RequestsPrefix|..|folder| - 1]
    ensures exists k :: k in s && StartsWith(k, folder)
  {
    assert PrefixItem(folder) in Children(s, RequestsPrefix);
    var k :| k in s && StartsWith(k, RequestsPrefix) && ChildOf(RequestsPrefix, k) == PrefixItem(folder);
    ChildFolderShape(RequestsPrefix, k);
  }

  /** A folder entry is the prefix, the key's next segment and `/`, and a prefix of the key. */
  lemma ChildFolderShape(prefix: string, k: string)
    requires StartsWith(k, prefix) && ChildOf(prefix, k).PrefixItem?
    ensures var folder := ChildOf(prefix, k).name;
      && StartsWith(folder, prefix) && |folder| > |prefix|
      && folder[|folder| - 1] == '/' && '/' !in folder[|prefix|..|folder| - 1]
      && StartsWith(k, folder)
  {
    var folder := ChildOf(prefix, k).name;
    var rest := k[|prefix|..];
    var i := CharIndex(rest, '/');
    assert folder == prefix + rest[..i + 1];
    assert folder[..|prefix|] == prefix;
    assert folder[|prefix|..|folder| - 1] == rest[..i];
    assert k == prefix + rest;
    assert k[..|folder|] == folder;
  }
}

=== FILE: get_investment_by_id.dfy ===
/**
  `GET /investments/:requestId`: the first listed folder whose name contains
  `_{requestId}/`, and its two records exactly as stored. No match is a 404; a
  record that cannot be read is a 500 (not a skip), as is a failure to list.
 */
module GetInvestmentById {
  import opened Wrappers
  import opened Json
  import opened Text
  import opened BlobStore
  import opened RequestFolders

  datatype DetailResponse =
    | Detail(requestId: string, submittedAt: string, input: Value, aiScore: Value)
    | DealNotFound
    | LoadFailed

  /** The HTTP status of an answer: 200 with the deal, 404 when no folder matches, 500 on a failure. */
  function DetailStatus(r: DetailResponse): nat {
    match r
    case Detail(_, _, _, _) => 200
    case DealNotFound => 404
    case LoadFailed => 500
  }

  /** `folders.find(f => f.includes(pattern))`, as an index. */
  function FindFolder(folders: seq<string>, pattern: string): (r: Option<nat>)
    ensures r.Some? ==> r.value < |folders| && Contains(folders[r.value], pattern)
    ensures r.Some? ==> forall j :: 0 <= j < r.value ==> !Contains(folders[j], pattern)
    ensures r.None? <==> forall j :: 0 <= j < |folders| ==> !Contains(folders[j], pattern)
  {
    if folders == [] then None
    else if Contains(folders[0], pattern) then Some(0)
    else
      match FindFolder(folders[1..], pattern)
      case None => None
      case Some(i) => Some(i + 1)
  }

  /** The route, given the hierarchical listing under `requests/` or `None` when listing fails. */
  function GetInvestmentById(s: Store, listing: Option<seq<ListItem>>, requestId: string): (r: DetailResponse)
    ensures r.LoadFailed? <==>
      || listing.None?
      || var folders := ListRequestFolders(listing.value);
         var i := FindFolder(folders, IdPattern(requestId));
         && i.Some?
         && (ReadJson(s, folders[i.value] + "raw_input.json").Failure? || ReadJson(s, folders[i.value] + "score.json").Failure?)
    ensures DetailStatus(r) == 404 <==> r.DealNotFound?
    ensures DetailStatus(r) == 500 <==> r.LoadFailed?
    ensures r.DealNotFound? <==>
      && listing.Some?
      && forall f :: f in ListRequestFolders(listing.value) ==> !Contains(f, IdPattern(requestId))
    ensures r.Detail? ==>
      && listing.Some?
      && var folders := ListRequestFolders(listing.value);
         var i := FindFolder(folders, IdPattern(requestId));
         && i.Some?
         && r.requestId == requestId
         && r.submittedAt == ParseFolder(folders[i.value]).0
         && ReadJson(s, folders[i.value] + "raw_input.json") == Success(r.input)
         && ReadJson(s, folders[i.value] + "score.json") == Success(r.aiScore)
  {
    match listing
    case None => LoadFailed
    case Some(items) =>
      var folders := ListRequestFolders(items);
      assert forall j :: 0 <= j < |folders| ==> folders[j] in folders;
      match FindFolder(folders, IdPattern(requestId))
      case None => DealNotFound
      case Some(i) =>
        var folder := folders[i];
        match ReadJson(s, folder + "raw_input.json")
        case Failure(_) => LoadFailed
        case Success(input) =>
          match ReadJson(s, folder + "score.json")
          case Failure(_) => LoadFailed
          case Success(score) => Detail(requestId, ParseFolder(folder).0, input, score)
  }

  /** A matched folder with a record missing answers 500; the route never falls through to a later folder. */
  lemma MissingRecordFails(s: Store, items: seq<ListItem>, requestId: string)
    requires FindFolder(ListRequestFolders(items), IdPattern(requestId)).Some?
    requires var folder := ListRequestFolders(items)[FindFolder(ListRequestFolders(items), IdPattern(requestId)).value];
      folder + "raw_input.json" !in s || folder + "score.json" !in s
    ensures GetInvestmentById(s, Some(items), requestId) == LoadFailed
  {
  }
}

=== FILE: get_investments.dfy ===
/**
  `GET /investments`: one summary row per request folder whose `score.json` and
  `raw_input.json` can both be read, newest first. A folder with a missing or
  unreadable record, or a record that is `null`, is skipped; only a failure to list
  the folders fails the request.

  `new Date(submitted_at).getTime()` is the parameter `instant`.
 */
module GetInvestments {
  import opened Wrappers
  import opened Json
  import opened BlobStore
  import opened RequestFolders

  /** One row of the listing. `requestId` is `None` where the folder name has no `_`. */
  datatype Summary = Summary(
    requestId: Option<string>,
    startupName: Value,
    industry: Value,
    submittedAt: string,
    overallScore: Value,
    pass: Value)

  const UnknownStartup: Value := JString("Unknown Startup")
  const NoIndustry: Value := JString("N/A")

  /** `score.score?.overall_score ?? score.overall_score ?? 0` where `wrapped` is `score.score`. */
  function ScoreField(score: Value, wrapped: Option<Value>, key: string, fallback: Value): Value {
    Coalesce(ReadOptional(wrapped, key), Coalesce(Get(score, key), fallback))
  }

  /**
    The row for one folder, or `None` when the loop body throws: a record that cannot
    be read, or a `null` record whose property is then read.
   */
  function SummaryOf(s: Store, folder: string): (r: Option<Summary>)
    ensures r.Some? <==>
      && ReadJson(s, folder + "score.json").Success? && ReadJson(s, folder + "raw_input.json").Success?
      && ReadJson(s, folder + "score.json").value != JNull && ReadJson(s, folder + "raw_input.json").value != JNull
    ensures r.Some? ==> r.value.submittedAt == ParseFolder(folder).0 && r.value.requestId == ParseFolder(folder).1
  {
    match ReadJson(s, folder + "score.json")
    case Failure(_) => None
    case Success(score) =>
      match ReadJson(s, folder + "raw_input.json")
      case Failure(_) => None
      case Success(input) =>
        match Read(input, "intake")
        case Failure(_) => None
        case Success(intake) =>
          match Read(score, "score")
          case Failure(_) => None
          case Success(wrapped) =>
            var (timestamp, requestId) := ParseFolder(folder);
            Some(Summary(
              requestId,
              OrElse(ReadOptional(intake, "startup_name"), UnknownStartup),
              OrElse(ReadOptional(intake, "industry"), NoIndustry),
              timestamp,
              ScoreField(score, wrapped, "overall_score", JNumber(0.0)),
              ScoreField(score, wrapped, "pass", JBool(false))))
  }

  /** The loop over the folders: the rows of the readable folders, in folder order. */
  function Collect(s: Store, folders: seq<string>): (r: seq<Summary>)
    ensures |r| <= |folders|
    ensures forall x :: x in r ==> exists f :: f in folders && SummaryOf(s, f) == Some(x)
    ensures forall f :: f in folders && SummaryOf(s, f).Some? ==> SummaryOf(s, f).value in r
  {
    if folders == [] then []
    else
      var rest := Collect(s, folders[1..]);
      assert forall f :: f in folders <==> f == folders[0] || f in folders[1..];
      match SummaryOf(s, folders[0])
      case None => rest
      case Some(x) => [x] + rest
  }

  /** The row one folder contributes: its summary, or nothing. */
  function Row(s: Store, folder: string): seq<Summary> {
    if SummaryOf(s, folder).Some? then [SummaryOf(s, folder).value] else []
  }

  lemma CollectCons(s: Store, folders: seq<string>)
    requires folders != []
    ensures Collect(s, folders) == Row(s, folders[0]) + Collect(s, folders[1..])
  {
  }

  lemma ConcatAssoc<T>(a: seq<T>, b: seq<T>, c: seq<T>)
    ensures a + (b + c) == (a + b) + c
  {
  }

  /** The loop handles each folder on its own: the rows of two folder lists are the rows of each, in order. */
  lemma {:induction false} CollectConcat(s: Store, a: seq<string>, b: seq<string>)
    ensures Collect(s, a + b) == Collect(s, a) + Collect(s, b)
  {
    if a == [] {
      assert a + b == b;
    } else {
      var head := Row(s, a[0]);
      var x := Collect(s, a[1..]);
      var y := Collect(s, b);
      assert (a + b)[0] == a[0];
      assert (a + b)[1..] == a[1..] + b;
      CollectCons(s, a);
      CollectCons(s, a + b);
      CollectConcat(s, a[1..], b);
      ConcatAssoc(head, x, y);
    }
  }

  /** One folder gives one row or none. */
  lemma CollectOne(s: Store, folder: string)
    ensures Collect(s, [folder]) == if SummaryOf(s, folder).Some? then [SummaryOf(s, folder).value] else []
  {
    assert [folder][1..] == [];
  }

  // ---------------------------------------------------------------------------
  // Newest first
  // ---------------------------------------------------------------------------

  /** Ordered by `key`, largest first. */
  predicate Descending<T>(xs: seq<T>, key: T -> int) {
    forall i, j :: 0 <= i < j < |xs| ==> key(xs[i]) >= key(xs[j])
  }

  /** `x` placed after every element with a strictly larger key and before the rest. */
  function InsertDescending<T>(x: T, xs: seq<T>, key: T -> int): (r: seq<T>)
    ensures multiset(r) == multiset(xs) + multiset{x}
    ensures forall y :: y in r ==> y == x || y in xs
    ensures Descending(xs, key) ==> Descending(r, key)
  {
    if xs == [] then [x]
    else if key(xs[0]) <= key(x) then [x] + xs
    else
      var rest := InsertDescending(x, xs[1..], key);
      assert xs == [xs[0]] + xs[1..];
      if Descending(xs, key) then
        HeadBoundsRest(x, xs, rest, key);
        [xs[0]] + rest
      else
        [xs[0]] + rest
  }

  /** Behind a larger head: every element drawn from `x` and the tail of a descending `xs` has a key no larger than the head's. */
  lemma HeadBoundsRest<T>(x: T, xs: seq<T>, rest: seq<T>, key: T -> int)
    requires xs != [] && Descending(xs, key) && key(x) < key(xs[0])
    requires forall y :: y in rest ==> y == x || y in xs[1..]
    requires Descending(rest, key)
    ensures Descending([xs[0]] + rest, key)
  {
    forall i | 0 <= i < |rest| ensures key(rest[i]) <= key(xs[0]) {
      assert rest[i] in rest;
      if rest[i] != x {
        var j :| 0 <= j < |xs[1..]| && xs[1..][j] == rest[i];
        assert xs[j + 1] == rest[i];
      }
    }
  }

  /**
    A stable sort by `key`, largest first: each element is inserted in front of the
    sorted remainder, behind the elements with strictly larger keys.
   */
  function SortDescending<T>(xs: seq<T>, key: T -> int): (r: seq<T>)
    ensures multiset(r) == multiset(xs)
    ensures Descending(r, key)
  {
    if xs == [] then []
    else
      assert xs == [xs[0]] + xs[1..];
      InsertDescending(xs[0], SortDescending(xs[1..], key), key)
  }

  /** The elements of `xs` whose key is `k`, in their order in `xs`. */
  function WithKey<T>(xs: seq<T>, key: T -> int, k: int): seq<T> {
    if xs == [] then []
    else (if key(xs[0]) == k then [xs[0]] else []) + WithKey(xs[1..], key, k)
  }

  lemma WithKeyCons<T>(y: T, ys: seq<T>, key: T -> int, k: int)
    ensures WithKey([y] + ys, key, k) == (if key(y) == k then [y] else []) + WithKey(ys, key, k)
  {
    assert ([y] + ys)[1..] == ys;
  }

  lemma {:induction false} WithKeyInsert<T>(x: T, xs: seq<T>, key: T -> int, k: int)
    ensures WithKey(InsertDescending(x, xs, key), key, k) == WithKey([x] + xs, key, k)
  {
    if xs == [] {
      assert InsertDescending(x, xs, key) == [x] + xs;
    } else if key(xs[0]) > key(x) {
      var rest := InsertDescending(x, xs[1..], key);
      assert InsertDescending(x, xs, key) == [xs[0]] + rest;
      assert xs == [xs[0]] + xs[1..];
      WithKeyCons(xs[0], rest, key, k);
      WithKeyInsert(x, xs[1..], key, k);
      WithKeyCons(x, xs[1..], key, k);
      WithKeyCons(x, xs, key, k);
      WithKeyCons(xs[0], xs[1..], key, k);
      var h0 := if key(xs[0]) == k then [xs[0]] else [];
      var hx := if key(x) == k then [x] else [];
      SwapEmptyHead(h0, hx, WithKey(xs[1..], key, k));
    }
  }

  /** Two prefixes of which one is empty can be swapped. */
  lemma SwapEmptyHead<T>(a: seq<T>, b: seq<T>, c: seq<T>)
    requires a == [] || b == []
    ensures a + (b + c) == b + (a + c)
  {
    if a == [] {
      assert a + (b + c) == b + c;
    } else {
      assert b + (a + c) == a + c;
    }
  }

  /** Stability: elements with equal keys keep their relative order. */
  lemma {:induction false} SortIsStable<T>(xs: seq<T>, key: T -> int, k: int)
    ensures WithKey(SortDescending(xs, key), key, k) == WithKey(xs, key, k)
  {
    if xs != [] {
      var sorted := SortDescending(xs[1..], key);
      WithKeyInsert(xs[0], sorted, key, k);
      SortIsStable(xs[1..], key, k);
      assert ([xs[0]] + sorted)[1..] == sorted;
    }
  }

  /** Input already in order is left as it is. */
  lemma {:induction false} SortKeepsSorted<T>(xs: seq<T>, key: T -> int)
    requires Descending(xs, key)
    ensures SortDescending(xs, key) == xs
  {
    if xs != [] {
      assert Descending(xs[1..], key);
      SortKeepsSorted(xs[1..], key);
      assert xs == [xs[0]] + xs[1..];
    }
  }

  /** The sort key of a row: `new Date(submitted_at).getTime()`. */
  function Newness(instant: string -> int): Summary -> int {
    (x: Summary) => instant(x.submittedAt)
  }

  // ---------------------------------------------------------------------------
  // The route
  // ---------------------------------------------------------------------------

  datatype ListResponse = Investments(rows: seq<Summary>) | ListFailed

  /** The HTTP status of an answer: 200 with the rows, 500 when listing fails. */
  function ListStatus(r: ListResponse): nat {
    if r.Investments? then 200 else 500
  }

  /** The route, given the hierarchical listing under `requests/` or `None` when listing fails. */
  function GetInvestments(s: Store, listing: Option<seq<ListItem>>, instant: string -> int): (r: ListResponse)
    ensures r.ListFailed? <==> listing.None?
    ensures ListStatus(r) == 500 <==> listing.None?
    ensures r.Investments? ==>
      && Descending(r.rows, Newness(instant))
      && multiset(r.rows) == multiset(Collect(s, ListRequestFolders(listing.value)))
  {
    match listing
    case None => ListFailed
    case Some(items) => Investments(SortDescending(Collect(s, ListRequestFolders(items)), Newness(instant)))
  }

  /** Every listed folder whose records are readable and not `null` has its row in the answer. */
  lemma ReadableFolderListed(s: Store, items: seq<ListItem>, instant: string -> int, folder: string)
    requires folder in ListRequestFolders(items)
    requires SummaryOf(s, folder).Some?
    ensures SummaryOf(s, folder).value in GetInvestments(s, Some(items), instant).rows
  {
    var rows := GetInvestments(s, Some(items), instant).rows;
    assert SummaryOf(s, folder).value in multiset(rows);
  }

  // ---------------------------------------------------------------------------
  // Fallback fields
  // ---------------------------------------------------------------------------

  /** A missing or falsy `startup_name` or `industry` shows the placeholder. */
  lemma PlaceholderNames(s: Store, folder: string)
    requires SummaryOf(s, folder).Some?
    ensures var intake := Get(ReadJson(s, folder + "raw_input.json").value, "intake");
      && (!Truthy(ReadOptional(intake, "startup_name")) ==> SummaryOf(s, folder).value.startupName == UnknownStartup)
      && (Truthy(ReadOptional(intake, "startup_name")) ==> Some(SummaryOf(s, folder).value.startupName) == ReadOptional(intake, "startup_name"))
      && (!Truthy(ReadOptional(intake, "industry")) ==> SummaryOf(s, folder).value.industry == NoIndustry)
      && (Truthy(ReadOptional(intake, "industry")) ==> Some(SummaryOf(s, folder).value.industry) == ReadOptional(intake, "industry"))
  {
  }

  /** A score record wrapped as `{score: {...}}` supplies the wrapped fields. */
  lemma WrappedScoreUsed(s: Store, folder: string, wrapped: map<string, Value>)
    requires SummaryOf(s, folder).Some?
    requires Get(ReadJson(s, folder + "score.json").value, "score") == Some(JObject(wrapped))
    requires "overall_score" in wrapped && wrapped["overall_score"] != JNull
    requires "pass" in wrapped && wrapped["pass"] != JNull
    ensures SummaryOf(s, folder).value.overallScore == wrapped["overall_score"]
    ensures SummaryOf(s, folder).value.pass == wrapped["pass"]
  {
  }

  /** A bare score record (no `score` property) supplies its own top-level fields. */
  lemma BareScoreUsed(s: Store, folder: string, bare: map<string, Value>)
    requires SummaryOf(s, folder).Some?
    requires ReadJson(s, folder + "score.json").value == JObject(bare)
    requires "score" !in bare
    requires "overall_score" in bare && bare["overall_score"] != JNull
    requires "pass" in bare && bare["pass"] != JNull
    ensures SummaryOf(s, folder).value.overallScore == bare["overall_score"]
    ensures SummaryOf(s, folder).value.pass == bare["pass"]
  {
  }

  /** A wrapped record lacking a field falls back to the top-level field of the same name. */
  lemma MixedScoreUsed(s: Store, folder: string, wrapped: map<string, Value>)
    requires SummaryOf(s, folder).Some?
    requires Get(ReadJson(s, folder + "score.json").value, "score") == Some(JObject(wrapped))
    requires "overall_score" !in wrapped && "pass" !in wrapped
    requires var score := ReadJson(s, folder + "score.json").value;
      && Get(score, "overall_score").Some? && Get(score, "overall_score").value != JNull
      && Get(score, "pass").Some? && Get(score, "pass").value != JNull
    ensures var score := ReadJson(s, folder + "score.json").value;
      && SummaryOf(s, folder).value.overallScore == Get(score, "overall_score").value
      && SummaryOf(s, folder).value.pass == Get(score, "pass").value
  {
  }

  /** With the fields in neither place, or `null` in both, the row shows a score of 0 and `pass: false`. */
  lemma ScoreDefaults(s: Store, folder: string)
    requires SummaryOf(s, folder).Some?
    requires var score := ReadJson(s, folder + "score.json").value;
      && (ReadOptional(Get(score, "score"), "overall_score").None? || ReadOptional(Get(score, "score"), "overall_score") == Some(JNull))
      && (Get(score, "overall_score").None? || Get(score, "overall_score") == Some(JNull))
      && (ReadOptional(Get(score, "score"), "pass").None? || ReadOptional(Get(score, "score"), "pass") == Some(JNull))
      && (Get(score, "pass").None? || Get(score, "pass") == Some(JNull))
    ensures SummaryOf(s, folder).value.overallScore == JNumber(0.0)
    ensures SummaryOf(s, folder).value.pass == JBool(false)
  {
  }
}

=== FILE: intake.dfy ===
/**
  The Intake schema: twelve required string fields, of which `founder_email` must
  pass the email check and `deck_url` the URL check. Values are returned exactly as
  submitted. The email and URL validators are parameters of the model.
 */
module IntakeSchema {
  import opened Wrappers
  import opened Json
  import opened Zod

  datatype Intake = Intake(
    startupName: string,
    founderEmail: string,
    industry: string,
    stage: string,
    location: string,
    oneLiner: string,
    problem: string,
    solution: string,
    traction: string,
    revenue: string,
    teamBackground: string,
    deckUrl: string)

  /** The declared keys, in declaration order (zod reports issues in this order). */
  const FieldNames: seq<string> := [
    "startup_name", "founder_email", "industry", "stage", "location", "one_liner",
    "problem", "solution", "traction", "revenue", "team_background", "deck_url"]

  /** The syntax checks behind zod's `.email()` and `.url()`. */
  datatype Checks = Checks(isEmail: string -> bool, isUrl: string -> bool)

  function Refinement(name: string, checks: Checks): string -> bool {
    if name == "founder_email" then checks.isEmail
    else if name == "deck_url" then checks.isUrl
    else _ => true
  }

  function RefinementCode(name: string): IssueCode {
    if name == "founder_email" then InvalidEmail
    else if name == "deck_url" then InvalidUrl
    else InvalidType
  }

  /** The field `name` of `v` is a string that passes its check. */
  predicate FieldOk(v: Value, name: string, checks: Checks) {
    IsString(Get(v, name)) && Refinement(name, checks)(Get(v, name).value.s)
  }

  predicate AllFieldsOk(v: Value, names: seq<string>, checks: Checks) {
    forall k :: 0 <= k < |names| ==> FieldOk(v, names[k], checks)
  }

  predicate StringFields(v: Value) {
    && IsString(Get(v, "startup_name")) && IsString(Get(v, "founder_email"))
    && IsString(Get(v, "industry")) && IsString(Get(v, "stage"))
    && IsString(Get(v, "location")) && IsString(Get(v, "one_liner"))
    && IsString(Get(v, "problem")) && IsString(Get(v, "solution"))
    && IsString(Get(v, "traction")) && IsString(Get(v, "revenue"))
    && IsString(Get(v, "team_background")) && IsString(Get(v, "deck_url"))
  }

  /** A submission the Intake schema accepts: an object whose twelve fields are strings, with a valid email and URL. */
  predicate Conforms(v: Value, checks: Checks) {
    && v.JObject?
    && StringFields(v)
    && checks.isEmail(v.fields["founder_email"].s)
    && checks.isUrl(v.fields["deck_url"].s)
  }

  /** The issues for the fields `names`, in order. */
  function FieldIssues(v: Value, names: seq<string>, checks: Checks): (r: seq<Issue>)
    ensures r == [] <==> AllFieldsOk(v, names, checks)
  {
    if names == [] then []
    else
      var head := StringIssues([Key(names[0])], Get(v, names[0]), Refinement(names[0], checks), RefinementCode(names[0]));
      var rest := FieldIssues(v, names[1..], checks);
      assert AllFieldsOk(v, names, checks) <==> FieldOk(v, names[0], checks) && AllFieldsOk(v, names[1..], checks) by {
        if FieldOk(v, names[0], checks) && AllFieldsOk(v, names[1..], checks) {
          forall k | 0 <= k < |names| ensures FieldOk(v, names[k], checks) {
            if k > 0 { assert names[k] == names[1..][k - 1]; }
          }
        }
      }
      head + rest
  }

  /** Every issue zod reports for `v` against the Intake schema. */
  function Issues(v: Value, checks: Checks): seq<Issue> {
    if !v.JObject? then TypeIssue([], Some(v)) else FieldIssues(v, FieldNames, checks)
  }

  /** The field called `name`. */
  function FieldOf(i: Intake, name: string): string {
    if name == "startup_name" then i.startupName
    else if name == "founder_email" then i.founderEmail
    else if name == "industry" then i.industry
    else if name == "stage" then i.stage
    else if name == "location" then i.location
    else if name == "one_liner" then i.oneLiner
    else if name == "problem" then i.problem
    else if name == "solution" then i.solution
    else if name == "traction" then i.traction
    else if name == "revenue" then i.revenue
    else if name == "team_background" then i.teamBackground
    else i.deckUrl
  }

  const FieldSet: set<string> := {
    "startup_name", "founder_email", "industry", "stage", "location", "one_liner",
    "problem", "solution", "traction", "revenue", "team_background", "deck_url"}

  /** The object zod returns: the twelve declared keys, each a string. */
  function ToValue(i: Intake): Value {
    JObject(map[
      "startup_name" := JString(i.startupName), "founder_email" := JString(i.founderEmail),
      "industry" := JString(i.industry), "stage" := JString(i.stage),
      "location" := JString(i.location), "one_liner" := JString(i.oneLiner),
      "problem" := JString(i.problem), "solution" := JString(i.solution),
      "traction" := JString(i.traction), "revenue" := JString(i.revenue),
      "team_background" := JString(i.teamBackground), "deck_url" := JString(i.deckUrl)])
  }

  function Build(v: Value): Intake
    requires v.JObject? && StringFields(v)
  {
    var f := v.fields;
    Intake(
      f["startup_name"].s, f["founder_email"].s, f["industry"].s, f["stage"].s,
      f["location"].s, f["one_liner"].s, f["problem"].s, f["solution"].s,
      f["traction"].s, f["revenue"].s, f["team_background"].s, f["deck_url"].s)
  }

  lemma ConformsIff(v: Value, checks: Checks)
    ensures v.JObject? ==> (Conforms(v, checks) <==> AllFieldsOk(v, FieldNames, checks))
  {
    if v.JObject? {
      if AllFieldsOk(v, FieldNames, checks) {
        FieldsOkConform(v, checks);
      }
      if Conforms(v, checks) {
        forall k | 0 <= k < |FieldNames| ensures FieldOk(v, FieldNames[k], checks) {
        }
      }
    }
  }

  lemma FieldsOkConform(v: Value, checks: Checks)
    requires v.JObject? && AllFieldsOk(v, FieldNames, checks)
    ensures Conforms(v, checks)
  {
    assert FieldOk(v, FieldNames[0], checks) && FieldOk(v, FieldNames[1], checks);
    assert FieldOk(v, FieldNames[2], checks) && FieldOk(v, FieldNames[3], checks);
    assert FieldOk(v, FieldNames[4], checks) && FieldOk(v, FieldNames[5], checks);
    assert FieldOk(v, FieldNames[6], checks) && FieldOk(v, FieldNames[7], checks);
    assert FieldOk(v, FieldNames[8], checks) && FieldOk(v, FieldNames[9], checks);
    assert FieldOk(v, FieldNames[10], checks) && FieldOk(v, FieldNames[11], checks);
  }

  lemma BuildIsRestrict(v: Value)
    requires v.JObject? && StringFields(v)
    ensures ToValue(Build(v)) == JObject(Restrict(v.fields, FieldSet))
  {
    assert ToValue(Build(v)).fields == Restrict(v.fields, FieldSet);
  }

  /**
    `IntakeSchema.parse`: success exactly for conforming submissions, returning the
    twelve declared fields verbatim (other keys dropped); otherwise every issue.
   */
  function Validate(v: Value, checks: Checks): (r: Result<Intake, seq<Issue>>)
    ensures r.Success? <==> Conforms(v, checks)
    ensures r.Success? ==> ToValue(r.value) == JObject(Restrict(v.fields, FieldSet))
    ensures r.Failure? ==> r.error == Issues(v, checks) && |r.error| > 0
  {
    var issues := Issues(v, checks);
    ConformsIff(v, checks);
    if issues == [] then
      BuildIsRestrict(v);
      Success(Build(v))
    else Failure(issues)
  }

  // ---------------------------------------------------------------------------
  // Properties
  // ---------------------------------------------------------------------------

  /** An accepted submission yields exactly the twelve declared fields, each the submitted string, untrimmed. */
  lemma AcceptedFieldsVerbatim(v: Value, checks: Checks)
    requires Validate(v, checks).Success?
    ensures var out := ToValue(Validate(v, checks).value).fields;
      && out.Keys == FieldSet
      && forall name :: name in out ==> out[name] == v.fields[name] && out[name].JString?
  {
    var out := ToValue(Validate(v, checks).value).fields;
    assert out.Keys == FieldSet;
  }

  function Paths(issues: seq<Issue>): set<seq<PathItem>> {
    set i | 0 <= i < |issues| :: issues[i].path
  }

  /** The paths of the fields among `names` that are missing, not strings, or fail their check. */
  function FailingPaths(v: Value, names: seq<string>, checks: Checks): set<seq<PathItem>> {
    set k | 0 <= k < |names| && !FieldOk(v, names[k], checks) :: [Key(names[k])]
  }

  lemma PathsConcat(a: seq<Issue>, b: seq<Issue>)
    ensures Paths(a + b) == Paths(a) + Paths(b)
  {
    forall p | p in Paths(a) ensures p in Paths(a + b) {
      var i :| 0 <= i < |a| && a[i].path == p;
      assert (a + b)[i].path == p;
    }
    forall p | p in Paths(a + b) ensures p in Paths(a) + Paths(b) {
      var i :| 0 <= i < |a + b| && (a + b)[i].path == p;
      if i >= |a| { assert b[i - |a|].path == p; }
    }
    forall p | p in Paths(b) ensures p in Paths(a + b) {
      var i :| 0 <= i < |b| && b[i].path == p;
      assert (a + b)[|a| + i].path == p;
    }
  }

  /** The failing paths of a list of names: its head's, if failing, and its tail's. */
  lemma FailingPathsCons(v: Value, names: seq<string>, checks: Checks)
    requires names != []
    ensures FailingPaths(v, names, checks)
      == (if FieldOk(v, names[0], checks) then {} else {[Key(names[0])]}) + FailingPaths(v, names[1..], checks)
  {
    var headPaths := if FieldOk(v, names[0], checks) then {} else {[Key(names[0])]};
    forall p | p in FailingPaths(v, names, checks) ensures p in headPaths + FailingPaths(v, names[1..], checks) {
      var k :| 0 <= k < |names| && !FieldOk(v, names[k], checks) && p == [Key(names[k])];
      if k > 0 { assert names[1..][k - 1] == names[k]; }
    }
    forall p | p in FailingPaths(v, names[1..], checks) ensures p in FailingPaths(v, names, checks) {
      var k :| 0 <= k < |names[1..]| && !FieldOk(v, names[1..][k], checks) && p == [Key(names[1..][k])];
      assert names[k + 1] == names[1..][k];
    }
  }

  /** The issues for `names` are about exactly the failing fields among them. */
  lemma {:induction false} FieldIssuePaths(v: Value, names: seq<string>, checks: Checks)
    ensures Paths(FieldIssues(v, names, checks)) == FailingPaths(v, names, checks)
  {
    if names != [] {
      var head := StringIssues([Key(names[0])], Get(v, names[0]), Refinement(names[0], checks), RefinementCode(names[0]));
      var rest := FieldIssues(v, names[1..], checks);
      PathsConcat(head, rest);
      FieldIssuePaths(v, names[1..], checks);
      FailingPathsCons(v, names, checks);
      if !FieldOk(v, names[0], checks) { assert head[0].path == [Key(names[0])]; }
    }
  }

  /**
    For an object, the issues name exactly the failing fields: each issue is about a
    field that is missing, not a string or failing its check, and every such field
    has an issue.
   */
  lemma IssuesNameFailingFields(v: Value, checks: Checks)
    requires v.JObject?
    ensures Paths(Issues(v, checks)) == FailingPaths(v, FieldNames, checks)
  {
    FieldIssuePaths(v, FieldNames, checks);
  }

  /** A missing field is rejected with a `Required` issue at that field. */
  lemma MissingFieldRejected(v: Value, checks: Checks, name: string)
    requires v.JObject? && name in FieldNames && name !in v.fields
    ensures Validate(v, checks).Failure?
    ensures Issue([Key(name)], Required) in Validate(v, checks).error
  {
    var k :| 0 <= k < |FieldNames| && FieldNames[k] == name;
    TypeIssueIn(v, FieldNames, checks, k);
  }

  /** A field present with a non-string value is rejected with an `InvalidType` issue at that field. */
  lemma NonStringFieldRejected(v: Value, checks: Checks, name: string)
    requires v.JObject? && name in FieldNames && name in v.fields && !v.fields[name].JString?
    ensures Validate(v, checks).Failure?
    ensures Issue([Key(name)], InvalidType) in Validate(v, checks).error
  {
    var k :| 0 <= k < |FieldNames| && FieldNames[k] == name;
    TypeIssueIn(v, FieldNames, checks, k);
  }

  lemma {:induction false} TypeIssueIn(v: Value, names: seq<string>, checks: Checks, k: nat)
    requires v.JObject? && k < |names| && !IsString(Get(v, names[k]))
    ensures Issue([Key(names[k])], if names[k] in v.fields then InvalidType else Required) in FieldIssues(v, names, checks)
  {
    if k > 0 {
      assert names[1..][k - 1] == names[k];
      TypeIssueIn(v, names[1..], checks, k - 1);
    }
  }

  /** A `founder_email` that fails the email check is rejected, and the issue says so. */
  lemma BadEmailRejected(v: Value, checks: Checks)
    requires v.JObject? && IsString(Get(v, "founder_email"))
    requires !checks.isEmail(v.fields["founder_email"].s)
    ensures Validate(v, checks).Failure?
    ensures Issue([Key("founder_email")], InvalidEmail) in Validate(v, checks).error
  {
    assert FieldNames[1..][0] == "founder_email";
    assert FieldIssues(v, FieldNames[1..], checks)[0] == Issue([Key("founder_email")], InvalidEmail);
  }

  /** A `deck_url` that fails the URL check is rejected, and the issue says so. */
  lemma BadUrlRejected(v: Value, checks: Checks)
    requires v.JObject? && IsString(Get(v, "deck_url"))
    requires !checks.isUrl(v.fields["deck_url"].s)
    ensures Validate(v, checks).Failure?
    ensures Issue([Key("deck_url")], InvalidUrl) in Validate(v, checks).error
  {
    UrlIssueIn(v, FieldNames, checks, 11);
  }

  lemma {:induction false} UrlIssueIn(v: Value, names: seq<string>, checks: Checks, k: nat)
    requires k < |names| && names[k] == "deck_url"
    requires IsString(Get(v, "deck_url")) && !checks.isUrl(v.fields["deck_url"].s)
    ensures Issue([Key("deck_url")], InvalidUrl) in FieldIssues(v, names, checks)
  {
    if k > 0 {
      assert names[1..][k - 1] == names[k];
      UrlIssueIn(v, names[1..], checks, k - 1);
    }
  }

  /** Validating the returned object gives back the same Intake. */
  lemma ValidateToValue(i: Intake, checks: Checks)
    requires checks.isEmail(i.founderEmail) && checks.isUrl(i.deckUrl)
    ensures Validate(ToValue(i), checks) == Success(i)
  {
    var v := ToValue(i);
    assert StringFields(v);
    assert Conforms(v, checks);
    assert Build(v) == i;
  }
}

=== FILE: json.dfy ===
/**
  JSON values as `JSON.parse` produces them, and the JavaScript expression forms the
  routes apply to them: property access, optional chaining `?.`, `||` and `??`.
  An absent property (`undefined`) is `None`.
 */
module Json {
  import opened Wrappers

  datatype Value =
    | JNull
    | JBool(b: bool)
    | JNumber(n: real)
    | JString(s: string)
    | JArray(items: seq<Value>)
    | JObject(fields: map<string, Value>)

  /** `Number.isInteger(n)` for a finite number. */
  predicate IsInteger(n: real) {
    n.Floor as real == n
  }

  /** `v.key` on a `v` that is not null: only an object can have the property. */
  function Get(v: Value, key: string): (r: Option<Value>)
    ensures r.Some? <==> v.JObject? && key in v.fields
    ensures r.Some? ==> r.value == v.fields[key]
  {
    if v.JObject? && key in v.fields then Some(v.fields[key]) else None
  }

  /** `v.key` where `v` may be null: reading a property of null throws a TypeError (`Failure`). */
  function Read(v: Value, key: string): (r: Result<Option<Value>, string>)
    ensures r.Failure? <==> v == JNull
    ensures r.Success? ==> r.value == Get(v, key)
  {
    if v == JNull then Failure("TypeError") else Success(Get(v, key))
  }

  /** `v?.key`: undefined when `v` is undefined or null, otherwise an ordinary property read. */
  function ReadOptional(v: Option<Value>, key: string): (r: Option<Value>)
    ensures v.None? || v == Some(JNull) ==> r.None?
    ensures v.Some? && v.value.JObject? ==> r == Get(v.value, key)
  {
    if v.None? || v.value == JNull then None else Get(v.value, key)
  }

  /** JavaScript truthiness; `undefined`, `null`, `false`, `0` and `""` are falsy. */
  predicate Truthy(v: Option<Value>) {
    match v
    case None => false
    case Some(JNull) => false
    case Some(JBool(b)) => b
    case Some(JNumber(n)) => n != 0.0
    case Some(JString(s)) => s != ""
    case Some(_) => true
  }

  /** `v || fallback`. */
  function OrElse(v: Option<Value>, fallback: Value): (r: Value)
    ensures Truthy(v) ==> Some(r) == v
    ensures !Truthy(v) ==> r == fallback
  {
    if Truthy(v) then v.value else fallback
  }

  /** `v ?? fallback`: only `undefined` and `null` are replaced. */
  function Coalesce(v: Option<Value>, fallback: Value): (r: Value)
    ensures v.Some? && v.value != JNull ==> Some(r) == v
    ensures v.None? || v == Some(JNull) ==> r == fallback
  {
    if v.Some? && v.value != JNull then v.value else fallback
  }

  /** The object that keeps only the listed properties of `fields`, as `z.object` does with unknown keys. */
  function Restrict(fields: map<string, Value>, keys: set<string>): (r: map<string, Value>)
    ensures r.Keys == fields.Keys * keys
    ensures forall k :: k in r ==> r[k] == fields[k]
  {
    map k | k in fields && k in keys :: fields[k]
  }

  /** `JSON.stringify` of a string: quoted, with `"`, `\`, and control characters escaped. */
  function QuoteString(s: string): (r: string)
    ensures |r| >= |s| + 2 && r[0] == '"' && r[|r| - 1] == '"'
  {
    "\"" + Escape(s) + "\""
  }

  function Escape(s: string): (r: string)
    ensures |r| >= |s|
  {
    if |s| == 0 then "" else EscapeChar(s[0]) + Escape(s[1..])
  }

  /** The escape sequence `JSON.stringify` writes for one character. */
  function EscapeChar(c: char): (r: string)
    ensures |r| >= 1
    ensures (c as int >= 0x20 && c != '"' && c != '\\') <==> r == [c]
  {
    if c == '"' then "\\\""
    else if c == '\\' then "\\\\"
    else if c as int == 0x08 then "\\b"
    else if c as int == 0x0C then "\\f"
    else if c == '\n' then "\\n"
    else if c == '\r' then "\\r"
    else if c == '\t' then "\\t"
    else if c as int < 0x20 then "\\u00" + [HexDigit(c as int / 16), HexDigit(c as int % 16)]
    else [c]
  }

  function HexDigit(d: nat): char
    requires d < 16
  {
    "0123456789abcdef"[d]
  }
}

=== FILE: lifecycle.dfy ===
/**
  What a successful submission looks like through the read routes: its folder is
  listed, its row carries the submitted name and the stored score, and the detail
  route returns both records exactly as stored.
 */
module Lifecycle {
  import opened Wrappers
  import opened Json
  import opened Text
  import opened BlobStore
  import IntakeSchema
  import ScoreOutputSchema
  import LlmScorer
  import opened ScoreInvestment
  import opened RequestFolders
  import opened GetInvestments
  import opened GetInvestmentById

  /** The request id and timestamp are single folder-name segments with no `_`, as uuids and ISO timestamps are. */
  predicate PlainSegments(env: Env) {
    '_' !in env.timestamp && '_' !in env.requestId && '/' !in env.timestamp && '/' !in env.requestId
  }

  /** The listing row a submission's records produce. */
  function RowFor(requestId: string, timestamp: string, intake: IntakeSchema.Intake, score: ScoreOutputSchema.ScoreOutput): Summary {
    Summary(
      Some(requestId),
      if intake.startupName == "" then UnknownStartup else JString(intake.startupName),
      if intake.industry == "" then NoIndustry else JString(intake.industry),
      timestamp,
      JNumber(score.overallScore as real),
      JBool(score.pass))
  }

  /** The folder keys of a base path are the base path's own keys. */
  lemma FolderKeys(timestamp: string, requestId: string)
    ensures var base := BasePath(timestamp, requestId);
      && FolderName(timestamp, requestId) + "raw_input.json" == InputKey(base)
      && FolderName(timestamp, requestId) + "score.json" == OutputKey(base)
  {
    var base := BasePath(timestamp, requestId);
    assert base + "/" + "raw_input.json" == base + "/raw_input.json";
    assert base + "/" + "score.json" == base + "/score.json";
  }

  lemma IntakeNameFields(intake: IntakeSchema.Intake)
    ensures Get(IntakeSchema.ToValue(intake), "startup_name") == Some(JString(intake.startupName))
    ensures Get(IntakeSchema.ToValue(intake), "industry") == Some(JString(intake.industry))
  {
  }

  lemma ScoreSummaryFields(score: ScoreOutputSchema.ScoreOutput)
    ensures Get(ScoreOutputSchema.ToValue(score), "overall_score") == Some(JNumber(score.overallScore as real))
    ensures Get(ScoreOutputSchema.ToValue(score), "pass") == Some(JBool(score.pass))
  {
  }

  /** The row built from a raw input holding `intake` and a score record wrapping `score`. */
  lemma RowOfRecords(t: Store, folder: string, timestamp: string, requestId: string,
                     input: Value, scoreRecord: Value, intake: IntakeSchema.Intake, score: ScoreOutputSchema.ScoreOutput)
    requires ParseFolder(folder) == (timestamp, Some(requestId))
    requires ReadJson(t, folder + "raw_input.json") == Success(input)
    requires ReadJson(t, folder + "score.json") == Success(scoreRecord)
    requires Get(input, "intake") == Some(IntakeSchema.ToValue(intake))
    requires Get(scoreRecord, "score") == Some(ScoreOutputSchema.ToValue(score))
    ensures SummaryOf(t, folder) == Some(RowFor(requestId, timestamp, intake, score))
  {
    IntakeNameFields(intake);
    ScoreSummaryFields(score);
  }

  /** The records a submission stores give its row back: names (or their placeholders), timestamp, id and score. */
  lemma RowOfStoredRecords(t: Store, env: Env, intake: IntakeSchema.Intake, score: ScoreOutputSchema.ScoreOutput)
    requires PlainSegments(env)
    requires var base := BasePath(env.timestamp, env.requestId);
      && ReadJson(t, InputKey(base)) == Success(RawInputDoc(env.requestId, env.timestamp, intake))
      && ReadJson(t, OutputKey(base)) == Success(ScoreDoc(env.requestId, env.scoredAt, score))
    ensures SummaryOf(t, FolderName(env.timestamp, env.requestId)) == Some(RowFor(env.requestId, env.timestamp, intake, score))
  {
    FolderKeys(env.timestamp, env.requestId);
    FolderRoundTrip(env.timestamp, env.requestId);
    RowOfRecords(t, FolderName(env.timestamp, env.requestId), env.timestamp, env.requestId,
      RawInputDoc(env.requestId, env.timestamp, intake), ScoreDoc(env.requestId, env.scoredAt, score), intake, score);
  }

  /** The store after a scored submission holds its raw input and its score under its folder. */
  lemma ScoredRunStored(s: Store, sub: Submission, env: Env)
    requires ScoreInvestment.ScoreInvestment(s, sub, env).response.Scored?
    ensures var r := ScoreInvestment.ScoreInvestment(s, sub, env);
      var after := ApplyAll(s, r.writes);
      var base := BasePath(env.timestamp, env.requestId);
      && IntakeSchema.Validate(sub.body, env.checks).Success?
      && ReadJson(after, InputKey(base)) == Success(RawInputDoc(env.requestId, env.timestamp, IntakeSchema.Validate(sub.body, env.checks).value))
      && ReadJson(after, OutputKey(base)) == Success(ScoreDoc(env.requestId, env.scoredAt, r.response.score))
  {
    var intake := IntakeSchema.Validate(sub.body, env.checks).value;
    StoredRecordsMatchResponse(s, intake, sub.deck, env, LlmScorer.ScoreDeal(intake, env.scoreReplies, env.parseJson).outcome);
  }

  /** A store holding a readable score record under a submission's folder lists that folder. */
  lemma FolderOfRecordsListed(t: Store, env: Env, items: seq<ListItem>)
    requires PlainSegments(env)
    requires ReadJson(t, OutputKey(BasePath(env.timestamp, env.requestId))).Success?
    requires IsHierarchyListing(t, RequestsPrefix, items)
    ensures FolderName(env.timestamp, env.requestId) in ListRequestFolders(items)
  {
    var segment := env.timestamp + "_" + env.requestId;
    assert FolderName(env.timestamp, env.requestId) == RequestsPrefix + segment + "/";
    FolderKeys(env.timestamp, env.requestId);
    assert RequestsPrefix + segment + "/" + "score.json" in t;
    FolderListed(t, items, segment, "score.json");
  }

  /** A store holding a submission's two records under its folder lists that folder with the submission's row. */
  lemma RecordsListed(t: Store, env: Env, intake: IntakeSchema.Intake, score: ScoreOutputSchema.ScoreOutput,
                      items: seq<ListItem>, instant: string -> int)
    requires PlainSegments(env)
    requires var base := BasePath(env.timestamp, env.requestId);
      && ReadJson(t, InputKey(base)) == Success(RawInputDoc(env.requestId, env.timestamp, intake))
      && ReadJson(t, OutputKey(base)) == Success(ScoreDoc(env.requestId, env.scoredAt, score))
    requires IsHierarchyListing(t, RequestsPrefix, items)
    ensures RowFor(env.requestId, env.timestamp, intake, score) in GetInvestments.GetInvestments(t, Some(items), instant).rows
  {
    RowOfStoredRecords(t, env, intake, score);
    FolderOfRecordsListed(t, env, items);
    ReadableFolderListed(t, items, instant, FolderName(env.timestamp, env.requestId));
  }

  /** A store holding a submission's two records, with no other listed folder matching its id, serves them back. */
  lemma RecordsFound(t: Store, env: Env, input: Value, scoreRecord: Value, items: seq<ListItem>)
    requires PlainSegments(env)
    requires var base := BasePath(env.timestamp, env.requestId);
      && ReadJson(t, InputKey(base)) == Success(input)
      && ReadJson(t, OutputKey(base)) == Success(scoreRecord)
    requires IsHierarchyListing(t, RequestsPrefix, items)
    requires forall f :: f in ListRequestFolders(items) && f != FolderName(env.timestamp, env.requestId) ==>
      !Contains(f, IdPattern(env.requestId))
    ensures GetInvestmentById.GetInvestmentById(t, Some(items), env.requestId) == Detail(env.requestId, env.timestamp, input, scoreRecord)
  {
    var folder := FolderName(env.timestamp, env.requestId);
    FolderOfRecordsListed(t, env, items);
    FolderKeys(env.timestamp, env.requestId);
    FolderMatchIff(env.timestamp, env.requestId, env.requestId);
    FolderRoundTrip(env.timestamp, env.requestId);
    var folders := ListRequestFolders(items);
    var i := FindFolder(folders, IdPattern(env.requestId));
    assert folders[i.value] == folder;
  }

  /** After a scored submission, any listing of the store shows its row. */
  lemma SubmittedDealListed(s: Store, sub: Submission, env: Env, items: seq<ListItem>, instant: string -> int)
    requires PlainSegments(env)
    requires ScoreInvestment.ScoreInvestment(s, sub, env).response.Scored?
    requires IsHierarchyListing(ApplyAll(s, ScoreInvestment.ScoreInvestment(s, sub, env).writes), RequestsPrefix, items)
    ensures IntakeSchema.Validate(sub.body, env.checks).Success?
    ensures RowFor(env.requestId, env.timestamp, IntakeSchema.Validate(sub.body, env.checks).value, ScoreInvestment.ScoreInvestment(s, sub, env).response.score)
      in GetInvestments.GetInvestments(ApplyAll(s, ScoreInvestment.ScoreInvestment(s, sub, env).writes), Some(items), instant).rows
  {
    var r := ScoreInvestment.ScoreInvestment(s, sub, env);
    ScoredRunStored(s, sub, env);
    RecordsListed(ApplyAll(s, r.writes), env, IntakeSchema.Validate(sub.body, env.checks).value, r.response.score, items, instant);
  }

  /**
    After a scored submission, asking for its id returns both records as stored,
    provided no other listed folder contains `_{id}/` (which holds when every other
    listed folder was written for a different id; see `FolderMatchIff`).
   */
  lemma SubmittedDealFound(s: Store, sub: Submission, env: Env, items: seq<ListItem>)
    requires PlainSegments(env)
    requires ScoreInvestment.ScoreInvestment(s, sub, env).response.Scored?
    requires IsHierarchyListing(ApplyAll(s, ScoreInvestment.ScoreInvestment(s, sub, env).writes), RequestsPrefix, items)
    requires forall f :: f in ListRequestFolders(items) && f != FolderName(env.timestamp, env.requestId) ==>
      !Contains(f, IdPattern(env.requestId))
    ensures IntakeSchema.Validate(sub.body, env.checks).Success?
    ensures GetInvestmentById.GetInvestmentById(ApplyAll(s, ScoreInvestment.ScoreInvestment(s, sub, env).writes), Some(items), env.requestId)
      == Detail(env.requestId, env.timestamp,
                RawInputDoc(env.requestId, env.timestamp, IntakeSchema.Validate(sub.body, env.checks).value),
                ScoreDoc(env.requestId, env.scoredAt, ScoreInvestment.ScoreInvestment(s, sub, env).response.score))
  {
    var r := ScoreInvestment.ScoreInvestment(s, sub, env);
    ScoredRunStored(s, sub, env);
    RecordsFound(ApplyAll(s, r.writes), env,
      RawInputDoc(env.requestId, env.timestamp, IntakeSchema.Validate(sub.body, env.checks).value),
      ScoreDoc(env.requestId, env.scoredAt, r.response.score), items);
  }
}

=== FILE: llm_scorer.dfy ===
/**
  The scorer's bounded repair protocol. The oracle's answers are an input: `replies[0]`
  answers the scoring call and `replies[1]` the repair call (a missing entry is a call
  that throws). JSON text parsing is an abstract parser. At most two calls are made:
  an empty first answer fails at once, a first answer that does not parse or does not
  match the Score Output schema gets exactly one repair call quoting it, and the
  repair answer is final.
 */
module LlmScorer {
  import opened Wrappers
  import opened Json
  import opened Zod
  import opened ScoreOutputSchema
  import IntakeSchema
  import opened Oracle

  /** `JSON.parse`: `None` when it throws. */
  type JsonParser = string -> Option<Value>

  /** How a response format shows each category score. */
  datatype CategoryShape = BareNumber | EvaluationObject

  /** A response format as a prompt shows it: a filled-in example document, or a sketch of the field types. */
  datatype Format = Example(doc: Value) | TypeSketch(categories: CategoryShape)

  /**
    What each call sends. Both prompts show the oracle a response format; the
    wording around it is not modelled. The scoring prompt carries the submission and
    nothing else, in particular no deck summary.
   */
  datatype Prompt =
    | ScoringPrompt(format: Format, submission: IntakeSchema.Intake)
    | RepairPrompt(format: Format, previous: string)

  datatype ScoreError =
    | EmptyResponse                      // "Empty Gemini response"
    | OracleFailed                       // the call itself threw
    | InvalidJson                        // `JSON.parse` threw
    | SchemaMismatch(issues: seq<Issue>) // `ScoreOutputSchema.parse` threw

  datatype Scoring = Scoring(prompts: seq<Prompt>, outcome: Result<ScoreOutput, ScoreError>)

  /** The answer to call number `i`; an oracle that has no answer left fails the call. */
  function ReplyAt(replies: seq<Reply>, i: nat): Reply {
    if i < |replies| then replies[i] else CallFailed
  }

  /** `ScoreOutputSchema.parse(JSON.parse(text))`. */
  function ParseScore(text: string, parseJson: JsonParser): (r: Result<ScoreOutput, ScoreError>)
    ensures r.Success? <==> parseJson(text).Some? && Conforms(parseJson(text).value)
    ensures r.Success? ==> Validate(parseJson(text).value) == Success(r.value) && Valid(r.value)
  {
    match parseJson(text)
    case None => Failure(InvalidJson)
    case Some(v) =>
      match Validate(v)
      case Success(s) => Success(s)
      case Failure(issues) => Failure(SchemaMismatch(issues))
  }

  /** The first answer is non-empty text that fails to parse or to validate: the one case that triggers a repair call. */
  predicate NeedsRepair(first: Reply, parseJson: JsonParser) {
    first.Answered? && first.text != "" && ParseScore(first.text, parseJson).Failure?
  }

  // ---------------------------------------------------------------------------
  // The response format shown to the oracle
  // ---------------------------------------------------------------------------

  /** The format shows categories the way the schema wants them: as evaluation objects. */
  predicate ShowsEvaluationObjects(f: Format) {
    match f
    case Example(doc) => ScoreOutputSchema.IsCategoryScores(Get(doc, "category_scores"))
    case TypeSketch(shape) => shape == EvaluationObject
  }

  /** The category evaluation used in the corrected format example. */
  const ExampleCategory: Category := Category(4, "Why this score was given.", ["Supporting fact from the deck."])

  const ExampleScore: ScoreOutput := ScoreOutput(
    14, ExampleCategory, ExampleCategory.(score := 3), ExampleCategory, ExampleCategory.(score := 3),
    0.78, "Brief explanation of strengths and weaknesses.", ["Risk one", "Risk two"], FollowUp, true)

  /** The response format the prompts show: the example with each category as an evaluation object, as the schema requires. */
  const ResponseFormat: Value := ScoreOutputSchema.ToValue(ExampleScore)

  /** The example exactly as the system prompt writes it: categories as bare integers. */
  const ResponseFormatAsWritten: Value := JObject(map[
    "overall_score" := JNumber(14.0),
    "category_scores" := JObject(map[
      "market" := JNumber(4.0), "financials" := JNumber(3.0),
      "team" := JNumber(4.0), "product" := JNumber(3.0)]),
    "confidence" := JNumber(0.78),
    "summary" := JString("Brief explanation of strengths and weaknesses."),
    "key_risks" := JArray([JString("Risk one"), JString("Risk two")]),
    "recommended_next_step" := JString("follow-up"),
    "pass" := JBool(true)])

  /** The format the system prompt shows: its example document, categories as bare integers. */
  const SystemPromptFormat: Format := Example(ResponseFormatAsWritten)

  /** The format the repair prompt shows: a type sketch giving each category as `number`. */
  const RepairPromptFormat: Format := TypeSketch(BareNumber)

  /** The corrected formats: the example with evaluation objects, and a sketch asking for them. */
  const CorrectedSystemPromptFormat: Format := Example(ResponseFormat)
  const CorrectedRepairPromptFormat: Format := TypeSketch(EvaluationObject)

  /** The schema rejects the prompt's own example, so an oracle that follows it exactly is never accepted. */
  lemma ResponseFormatAsWrittenRejected()
    ensures Validate(ResponseFormatAsWritten).Failure?
    ensures Issue([Key("category_scores"), Key("market")], InvalidType) in Validate(ResponseFormatAsWritten).error
  {
    BareCategoryScoresRejected(ResponseFormatAsWritten, "market");
  }

  /** The corrected example is accepted and parses to the example score. */
  lemma ResponseFormatAccepted()
    ensures Validate(ResponseFormat) == Success(ExampleScore)
  {
    ValidateToValue(ExampleScore);
  }

  /** Both corrected formats show categories as evaluation objects. */
  lemma CorrectedFormatsShowObjects()
    ensures ShowsEvaluationObjects(CorrectedSystemPromptFormat) && ShowsEvaluationObjects(CorrectedRepairPromptFormat)
  {
    ToValueConforms(ExampleScore);
  }

  // ---------------------------------------------------------------------------
  // scoreDeal
  // ---------------------------------------------------------------------------

  /**
    `scoreDeal(input)`: one or two calls, the first always the scoring prompt for this
    submission, the second (exactly when a repair is needed) the repair prompt quoting
    the first answer verbatim. Whatever it returns conforms to the schema.
   */
  function ScoreDeal(intake: IntakeSchema.Intake, replies: seq<Reply>, parseJson: JsonParser): (r: Scoring)
    ensures 1 <= |r.prompts| <= 2
    ensures r.prompts[0] == ScoringPrompt(SystemPromptFormat, intake)
    ensures |r.prompts| == 2 <==> NeedsRepair(ReplyAt(replies, 0), parseJson)
    ensures |r.prompts| == 2 ==> r.prompts[1] == RepairPrompt(RepairPromptFormat, ReplyAt(replies, 0).text)
    ensures r.outcome.Success? ==> Valid(r.outcome.value)
  {
    var first := ScoringPrompt(SystemPromptFormat, intake);
    match ReplyAt(replies, 0)
    case CallFailed => Scoring([first], Failure(OracleFailed))
    case Answered(raw) =>
      if raw == "" then Scoring([first], Failure(EmptyResponse))
      else
        match ParseScore(raw, parseJson)
        case Success(s) => Scoring([first], Success(s))
        case Failure(_) =>
          var repair := RepairPrompt(RepairPromptFormat, raw);
          match ReplyAt(replies, 1)
          case CallFailed => Scoring([first, repair], Failure(OracleFailed))
          case Answered(repaired) =>
            Scoring([first, repair], ParseScore(repaired, parseJson))
  }

  /** Any score returned satisfies the Score Output schema, and validating it again returns it unchanged. */
  lemma ReturnedScoreConforms(intake: IntakeSchema.Intake, replies: seq<Reply>, parseJson: JsonParser)
    requires ScoreDeal(intake, replies, parseJson).outcome.Success?
    ensures var s := ScoreDeal(intake, replies, parseJson).outcome.value;
      Conforms(ScoreOutputSchema.ToValue(s)) && Validate(ScoreOutputSchema.ToValue(s)) == Success(s)
  {
    ValidateToValue(ScoreDeal(intake, replies, parseJson).outcome.value);
  }

  /** An empty first answer fails with "Empty Gemini response" after one call. */
  lemma EmptyFirstReplyFails(intake: IntakeSchema.Intake, replies: seq<Reply>, parseJson: JsonParser)
    requires |replies| > 0 && replies[0] == Answered("")
    ensures ScoreDeal(intake, replies, parseJson).outcome == Failure(EmptyResponse)
    ensures |ScoreDeal(intake, replies, parseJson).prompts| == 1
  {
  }

  /** A first answer that parses and validates is returned after exactly one call. */
  lemma FirstReplyAccepted(intake: IntakeSchema.Intake, replies: seq<Reply>, parseJson: JsonParser)
    requires |replies| > 0 && replies[0].Answered? && replies[0].text != ""
    requires ParseScore(replies[0].text, parseJson).Success?
    ensures ScoreDeal(intake, replies, parseJson) == Scoring([ScoringPrompt(SystemPromptFormat, intake)], ParseScore(replies[0].text, parseJson))
  {
  }

  /** After a repair call the outcome is the repair answer's parse, good or bad: there is no third attempt. */
  lemma RepairAnswerIsFinal(intake: IntakeSchema.Intake, replies: seq<Reply>, parseJson: JsonParser)
    requires NeedsRepair(ReplyAt(replies, 0), parseJson)
    ensures ScoreDeal(intake, replies, parseJson).outcome ==
      match ReplyAt(replies, 1)
      case CallFailed => Failure(OracleFailed)
      case Answered(repaired) => ParseScore(repaired, parseJson)
  {
    var raw := ReplyAt(replies, 0).text;
    assert ReplyAt(replies, 0) == Answered(raw) && raw != "";
    assert ParseScore(raw, parseJson).Failure?;
  }

  /** The result depends on the submission and the first two answers only: no third call is ever made. */
  lemma AtMostTwoCalls(intake: IntakeSchema.Intake, replies: seq<Reply>, others: seq<Reply>, parseJson: JsonParser)
    requires ReplyAt(replies, 0) == ReplyAt(others, 0) && ReplyAt(replies, 1) == ReplyAt(others, 1)
    ensures ScoreDeal(intake, replies, parseJson) == ScoreDeal(intake, others, parseJson)
  {
  }

  /** Scoring succeeds exactly when the first answer, or else the repair answer, parses to a conforming document. */
  lemma ScoringSucceedsIff(intake: IntakeSchema.Intake, replies: seq<Reply>, parseJson: JsonParser)
    ensures ScoreDeal(intake, replies, parseJson).outcome.Success? <==>
      || (ReplyAt(replies, 0).Answered? && ReplyAt(replies, 0).text != ""
          && ParseScore(ReplyAt(replies, 0).text, parseJson).Success?)
      || (NeedsRepair(ReplyAt(replies, 0), parseJson) && ReplyAt(replies, 1).Answered?
          && ParseScore(ReplyAt(replies, 1).text, parseJson).Success?)
  {
    if NeedsRepair(ReplyAt(replies, 0), parseJson) {
      RepairAnswerIsFinal(intake, replies, parseJson);
    }
  }

  /** An oracle that answers both calls with the prompt's own example never gets a score accepted. */
  lemma FollowingWrittenFormatFails(intake: IntakeSchema.Intake, replies: seq<Reply>, parseJson: JsonParser)
    requires |replies| >= 2 && replies[0].Answered? && replies[1].Answered? && replies[0].text != ""
    requires parseJson(replies[0].text) == Some(ResponseFormatAsWritten)
    requires parseJson(replies[1].text) == Some(ResponseFormatAsWritten)
    ensures ScoreDeal(intake, replies, parseJson).outcome.Failure?
    ensures |ScoreDeal(intake, replies, parseJson).prompts| == 2
  {
    ResponseFormatAsWrittenRejected();
  }

  /** Neither prompt the scorer sends shows categories as the evaluation objects the schema requires. */
  lemma SentFormatsShowBareCategories(intake: IntakeSchema.Intake, replies: seq<Reply>, parseJson: JsonParser)
    ensures var prompts := ScoreDeal(intake, replies, parseJson).prompts;
      forall i :: 0 <= i < |prompts| ==> !ShowsEvaluationObjects(prompts[i].format)
  {
    var cs := Get(ResponseFormatAsWritten, "category_scores");
    assert cs.Some? && Get(cs.value, "market") == Some(JNumber(4.0));
    assert !ScoreOutputSchema.IsCategory(Get(cs.value, "market"));
  }
}

=== FILE: oracle.dfy ===
/** The generative model, seen from the pipeline: each call either answers with text or throws. */
module Oracle {

  /** The outcome of one `generateContent` call: the response text, or a thrown error. */
  datatype Reply = Answered(text: string) | CallFailed
}

=== FILE: pdf_extractor.dfy ===
/**
  Deck text extraction. The PDF parser is a parameter: what `getText` yields for the
  stored bytes (a thrown error, or a result whose `text` may be missing). A missing
  text counts as the empty string. The extracted text is stored at
  `{basePath}/deck_text.json` as `{extracted_at, length, text}`, where `length` is
  JavaScript's UTF-16 length of the text. The safe variant turns every failure into
  `None` and writes nothing in that case.
 */
module PdfExtractor {
  import opened Wrappers
  import opened Json
  import opened Text
  import opened BlobStore

  /** The outcome of `new PDFParse(...).getText()` on some bytes. */
  datatype ParseOutcome = ParserThrew | Parsed(text: Option<string>)

  type PdfParser = seq<byte> -> ParseOutcome

  datatype DeckError = DeckUnreadable(cause: StoreError) | ParseFailed

  function PdfKey(basePath: string): string {
    basePath + "/raw_deck.pdf"
  }

  function TextKey(basePath: string): string {
    basePath + "/deck_text.json"
  }

  /** `result.text || ""`. */
  function TextOrEmpty(text: Option<string>): (r: string)
    ensures text.None? ==> r == ""
    ensures text.Some? ==> r == text.value
  {
    if text.Some? then text.value else ""
  }

  /** `extractPdfText(pdfPath)`: the blob's bytes, parsed. */
  function ExtractPdfText(s: Store, pdfPath: string, parse: PdfParser): (r: Result<string, DeckError>)
    ensures r.Success? <==> GetBlobBuffer(s, pdfPath).Success? && parse(GetBlobBuffer(s, pdfPath).value).Parsed?
    ensures r.Success? ==> r.value == TextOrEmpty(parse(s[pdfPath].data).text)
  {
    match GetBlobBuffer(s, pdfPath)
    case Failure(e) => Failure(DeckUnreadable(e))
    case Success(bytes) =>
      match parse(bytes)
      case ParserThrew => Failure(ParseFailed)
      case Parsed(text) => Success(TextOrEmpty(text))
  }

  /** The stored payload for an extracted text. */
  function DeckTextDoc(extractedAt: string, text: string): Value {
    JObject(map[
      "extracted_at" := JString(extractedAt),
      "length" := JNumber(Utf16Length(text) as real),
      "text" := JString(text)])
  }

  /** The writes a step made and what it returned. */
  datatype Extraction = Extraction(writes: seq<Write>, result: Result<string, DeckError>)

  /**
    `extractAndStoreDeckText(basePath)`: on success exactly one write, the text payload
    at the text key, and the text key is returned; on failure nothing is written.
   */
  function ExtractAndStoreDeckText(s: Store, basePath: string, parse: PdfParser, extractedAt: string): (r: Extraction)
    ensures r.result.Success? <==> ExtractPdfText(s, PdfKey(basePath), parse).Success?
    ensures r.result.Success? ==>
      r.result.value == TextKey(basePath)
      && r.writes == [PutJson(TextKey(basePath), DeckTextDoc(extractedAt, ExtractPdfText(s, PdfKey(basePath), parse).value))]
    ensures r.result.Failure? ==> r.writes == [] && r.result.error == ExtractPdfText(s, PdfKey(basePath), parse).error
  {
    var pdfKey := PdfKey(basePath);
    var textKey := TextKey(basePath);
    match ExtractPdfText(s, pdfKey, parse)
    case Failure(e) => Extraction([], Failure(e))
    case Success(text) => Extraction([PutJson(textKey, DeckTextDoc(extractedAt, text))], Success(textKey))
  }

  /** The writes and the key `extractAndStoreDeckTextSafe` returns (`None` for `null`). */
  datatype SafeExtraction = SafeExtraction(writes: seq<Write>, key: Option<string>)

  /** `extractAndStoreDeckTextSafe(basePath)`: never fails; the text key on success, `None` on any failure. */
  function ExtractAndStoreDeckTextSafe(s: Store, basePath: string, parse: PdfParser, extractedAt: string): (r: SafeExtraction)
    ensures r.key.Some? <==> ExtractPdfText(s, PdfKey(basePath), parse).Success?
    ensures r.key.Some? ==> r.key.value == TextKey(basePath)
    ensures r.writes == ExtractAndStoreDeckText(s, basePath, parse, extractedAt).writes
    ensures r.key.None? ==> r.writes == []
    ensures r.key.Some? ==> |r.writes| == 1 && r.writes[0].key == TextKey(basePath)
  {
    var attempt := ExtractAndStoreDeckText(s, basePath, parse, extractedAt);
    match attempt.result
    case Success(key) => SafeExtraction(attempt.writes, Some(key))
    case Failure(_) => SafeExtraction(attempt.writes, None)
  }

  /** The `length` recorded with a stored text is the UTF-16 length of that same text. */
  lemma StoredLengthMatchesText(s: Store, basePath: string, parse: PdfParser, extractedAt: string)
    requires ExtractAndStoreDeckTextSafe(s, basePath, parse, extractedAt).key.Some?
    ensures var after := ApplyAll(s, ExtractAndStoreDeckTextSafe(s, basePath, parse, extractedAt).writes);
      && ReadJson(after, TextKey(basePath)).Success?
      && var doc := ReadJson(after, TextKey(basePath)).value;
         && Get(doc, "text").Some? && Get(doc, "text").value.JString?
         && Get(doc, "length") == Some(JNumber(Utf16Length(Get(doc, "text").value.s) as real))
  {
  }

  /** Bytes the parser reads with no `text` are stored as the empty text. */
  lemma MissingTextStoredEmpty(s: Store, basePath: string, parse: PdfParser, extractedAt: string)
    requires GetBlobBuffer(s, PdfKey(basePath)).Success?
    requires parse(GetBlobBuffer(s, PdfKey(basePath)).value) == Parsed(None)
    ensures ExtractAndStoreDeckTextSafe(s, basePath, parse, extractedAt)
      == SafeExtraction([PutJson(TextKey(basePath), DeckTextDoc(extractedAt, ""))], Some(TextKey(basePath)))
  {
  }
}

=== FILE: request_folders.dfy ===
/**
  Reading a request folder's name back. The listing routes take a folder
  `requests/{timestamp}_{requestId}/` apart by dropping the first `requests/`, then one
  trailing `/`, then splitting on `_`; the detail route finds a folder by the
  substring `_{requestId}/`.
 */
module RequestFolders {
  import opened Wrappers
  import opened Text
  import opened BlobStore
  import ScoreInvestment

  /** The folder entry the listing shows for a submission: its base path and a `/`. */
  function FolderName(timestamp: string, requestId: string): string {
    ScoreInvestment.BasePath(timestamp, requestId) + "/"
  }

  /** `folder.replace('requests/', '').replace(/\/$/, '').split('_')`. */
  function FolderParts(folder: string): (parts: seq<string>)
    ensures |parts| >= 1
    ensures forall i :: 0 <= i < |parts| ==> '_' !in parts[i]
    ensures Join(parts, '_') == DropTrailingSlash(RemoveFirst(folder, RequestsPrefix))
  {
    Split(DropTrailingSlash(RemoveFirst(folder, RequestsPrefix)), '_')
  }

  /**
    `const [timestamp, requestId] = ...`: the text before the first `_`, and the text
    between the first and the second `_` (`undefined`, here `None`, when there is no `_`).
   */
  function ParseFolder(folder: string): (r: (string, Option<string>))
    ensures var t := DropTrailingSlash(RemoveFirst(folder, RequestsPrefix));
      && '_' !in r.0
      && StartsWith(t, r.0)
      && (r.1.None? <==> '_' !in t)
      && (r.1.None? ==> r.0 == t)
    ensures var t := DropTrailingSlash(RemoveFirst(folder, RequestsPrefix));
      r.1.Some? ==>
        && '_' !in r.1.value
        && |r.0| < |t| && t[|r.0|] == '_'
        && StartsWith(t[|r.0| + 1..], r.1.value)
        && (|r.0| + 1 + |r.1.value| == |t| || t[|r.0| + 1 + |r.1.value|] == '_')
  {
    var parts := FolderParts(folder);
    var trimmed := DropTrailingSlash(RemoveFirst(folder, RequestsPrefix));
    if |parts| > 1 then
      var rest := Join(parts[1..], '_');
      assert trimmed == parts[0] + ['_'] + rest;
      assert trimmed[|parts[0]|] == '_';
      assert trimmed[..|parts[0]|] == parts[0];
      assert trimmed[|parts[0]| + 1..] == rest;
      JoinHead(parts[1..], '_');
      (parts[0], Some(parts[1]))
    else
      (parts[0], None)
  }

  /** The first part opens the joined text, followed by the end or by a separator. */
  lemma JoinHead(parts: seq<string>, sep: char)
    requires |parts| >= 1
    ensures var j := Join(parts, sep);
      StartsWith(j, parts[0]) && (|parts[0]| == |j| || j[|parts[0]|] == sep)
  {
    if |parts| > 1 {
      var j := Join(parts, sep);
      assert j == parts[0] + [sep] + Join(parts[1..], sep);
      assert j[..|parts[0]|] == parts[0];
    }
  }

  /** A folder written for `(timestamp, requestId)`, both free of `_`, parses back to exactly that pair. */
  lemma {:induction false} FolderRoundTrip(timestamp: string, requestId: string)
    requires '_' !in timestamp && '_' !in requestId
    ensures ParseFolder(FolderName(timestamp, requestId)) == (timestamp, Some(requestId))
  {
    var folder := FolderName(timestamp, requestId);
    assert folder == RequestsPrefix + (timestamp + "_" + requestId + "/");
    assert StartsWith(folder, RequestsPrefix);
    var inner := timestamp + "_" + requestId;
    assert RemoveFirst(folder, RequestsPrefix) == inner + "/";
    assert DropTrailingSlash(inner + "/") == inner;
    assert Join([timestamp, requestId], '_') == inner;
    SplitJoin([timestamp, requestId], '_');
  }

  /** The pattern the detail route looks for. */
  function IdPattern(requestId: string): string {
    "_" + requestId + "/"
  }

  /**
    For folders written by the submission handler with `_`-free timestamps and ids and
    `/`-free ids, the substring test selects exactly the folder of the requested id.
   */
  lemma FolderMatchIff(timestamp: string, stored: string, requestId: string)
    requires '_' !in timestamp && '_' !in stored && '/' !in stored
    ensures Contains(FolderName(timestamp, stored), IdPattern(requestId)) <==> requestId == stored
  {
    var folder := FolderName(timestamp, stored);
    var p := IdPattern(requestId);
    if requestId == stored {
      OwnIdOccurs(timestamp, stored);
    }
    if Contains(folder, p) {
      var i: nat :| i <= |folder| && OccursAt(folder, p, i);
      OccurrenceIsOwnId(timestamp, stored, requestId, i);
    }
  }

  /** The folder's own id pattern starts at the `_` after the timestamp. */
  lemma OwnIdOccurs(timestamp: string, stored: string)
    ensures OccursAt(FolderName(timestamp, stored), IdPattern(stored), |RequestsPrefix| + |timestamp|)
  {
    var folder := FolderName(timestamp, stored);
    var at := |RequestsPrefix| + |timestamp|;
    assert folder == RequestsPrefix + timestamp + ("_" + stored + "/");
    assert folder[at..] == IdPattern(stored);
  }

  /** Any occurrence of an id pattern in such a folder name is the folder's own id. */
  lemma OccurrenceIsOwnId(timestamp: string, stored: string, requestId: string, i: nat)
    requires '_' !in timestamp && '_' !in stored && '/' !in stored
    requires OccursAt(FolderName(timestamp, stored), IdPattern(requestId), i)
    ensures requestId == stored
  {
    var folder := FolderName(timestamp, stored);
    var p := IdPattern(requestId);
    var at := |RequestsPrefix| + |timestamp|;
    assert folder[i] == p[0] == '_';
    NoUnderscoreElsewhere(timestamp, stored, i);
    var n := |requestId|;
    assert folder == RequestsPrefix + timestamp + "_" + stored + "/";
    assert folder[at + 1..] == stored + "/";
    assert folder[at + 1 + n] == '/';
    assert n == |stored|;
    assert requestId == p[1..n + 1] == folder[at + 1..at + 1 + n];
    assert folder[at + 1..at + 1 + n] == (stored + "/")[..n] == stored;
  }

  /** The only `_` of such a folder name is the one after the timestamp. */
  lemma NoUnderscoreElsewhere(timestamp: string, stored: string, i: nat)
    requires '_' !in timestamp && '_' !in stored
    requires i < |FolderName(timestamp, stored)| && FolderName(timestamp, stored)[i] == '_'
    ensures i == |RequestsPrefix| + |timestamp|
  {
    var folder := FolderName(timestamp, stored);
    var at := |RequestsPrefix| + |timestamp|;
    assert folder == RequestsPrefix + timestamp + "_" + stored + "/";
  }
}

=== FILE: score_investment.dfy ===
/**
  The submission handler (`POST /score-investment`). It validates the form, stores the
  raw input, stores the deck and runs the two deck steps when a file is attached,
  scores the submission, stores the score, and answers with the score and the paths
  of what it stored. A rejected form writes nothing; a failed scoring keeps what was
  already stored and answers 400.

  The generated request id and the clock readings are inputs, as are the answers of
  the PDF parser and of both oracles. Every store operation succeeds.
 */
module ScoreInvestment {
  import opened Wrappers
  import opened Json
  import opened BlobStore
  import opened Oracle
  import Zod
  import IntakeSchema
  import ScoreOutputSchema
  import LlmScorer
  import PdfExtractor
  import DeckSummarizer

  /** The form fields and, when one was attached, the bytes of the `pitchDeck` file. */
  datatype Submission = Submission(body: Value, deck: Option<seq<byte>>)

  /** Everything the handler takes from outside itself. */
  datatype Env = Env(
    requestId: string,
    timestamp: string,
    checks: IntakeSchema.Checks,
    parsePdf: PdfExtractor.PdfParser,
    extractedAt: string,
    summaryReply: Reply,
    summarizedAt: string,
    scoreReplies: seq<Reply>,
    parseJson: LlmScorer.JsonParser,
    scoredAt: string)

  /** `requests/{timestamp}_{requestId}`: the folder holding everything stored for one submission. */
  function BasePath(timestamp: string, requestId: string): string {
    RequestsPrefix + timestamp + "_" + requestId
  }

  function InputKey(base: string): string {
    base + "/raw_input.json"
  }

  function OutputKey(base: string): string {
    base + "/score.json"
  }

  /** A key the deck branch writes. */
  predicate IsDeckKey(base: string, key: string) {
    key == PdfExtractor.PdfKey(base) || key == PdfExtractor.TextKey(base) || key == DeckSummarizer.SummaryKey(base)
  }

  /** One of the five keys a submission can write. */
  predicate IsArtifactKey(base: string, key: string) {
    key == InputKey(base) || key == OutputKey(base) || IsDeckKey(base, key)
  }

  function RawInputDoc(requestId: string, receivedAt: string, intake: IntakeSchema.Intake): Value {
    JObject(map[
      "request_id" := JString(requestId),
      "received_at" := JString(receivedAt),
      "intake" := IntakeSchema.ToValue(intake)])
  }

  function ScoreDoc(requestId: string, scoredAt: string, score: ScoreOutputSchema.ScoreOutput): Value {
    JObject(map[
      "request_id" := JString(requestId),
      "scored_at" := JString(scoredAt),
      "score" := ScoreOutputSchema.ToValue(score)])
  }

  datatype BlobPaths = BlobPaths(input: string, output: string, deck: Option<string>, deckText: Option<string>)

  /** Why a submission was answered with status 400. */
  datatype Rejection = InvalidIntake(issues: seq<Zod.Issue>) | ScoringFailed(error: LlmScorer.ScoreError)

  datatype Response =
    | Scored(requestId: string, submittedAt: string, blobPaths: BlobPaths, score: ScoreOutputSchema.ScoreOutput)
    | Rejected(requestId: string, reason: Rejection)

  /** The HTTP status of an answer: 200 with the score, 400 otherwise. */
  function Status(r: Response): nat {
    if r.Scored? then 200 else 400
  }

  /** What became of the `deck_summary.json` read: skipped, failed (and swallowed), or its `summary` property. */
  datatype SummaryRead = NotRead | ReadFailed | ReadSummary(summary: Option<Value>)

  /** The writes made, the summary read, and the answer. */
  datatype Run = Run(writes: seq<Write>, summaryRead: SummaryRead, response: Response)

  datatype DeckStage = DeckStage(writes: seq<Write>, deckPath: Option<string>, deckTextKey: Option<string>)

  /** Suffixes that differ give keys that differ under the same folder. */
  lemma DistinctUnder(base: string, a: string, b: string)
    requires a != b
    ensures base + a != base + b
  {
    assert (base + a)[|base|..] == a;
    assert (base + b)[|base|..] == b;
  }

  lemma ArtifactKeysDistinct(base: string)
    ensures InputKey(base) != PdfExtractor.PdfKey(base) && InputKey(base) != PdfExtractor.TextKey(base)
    ensures InputKey(base) != DeckSummarizer.SummaryKey(base) && InputKey(base) != OutputKey(base)
    ensures OutputKey(base) != PdfExtractor.PdfKey(base) && OutputKey(base) != PdfExtractor.TextKey(base)
    ensures OutputKey(base) != DeckSummarizer.SummaryKey(base)
    ensures PdfExtractor.PdfKey(base) != PdfExtractor.TextKey(base)
    ensures PdfExtractor.PdfKey(base) != DeckSummarizer.SummaryKey(base)
    ensures PdfExtractor.TextKey(base) != DeckSummarizer.SummaryKey(base)
  {
    DistinctUnder(base, "/raw_input.json", "/raw_deck.pdf");
    DistinctUnder(base, "/raw_input.json", "/deck_text.json");
    DistinctUnder(base, "/raw_input.json", "/deck_summary.json");
    DistinctUnder(base, "/raw_input.json", "/score.json");
    DistinctUnder(base, "/score.json", "/raw_deck.pdf");
    DistinctUnder(base, "/score.json", "/deck_text.json");
    DistinctUnder(base, "/score.json", "/deck_summary.json");
    DistinctUnder(base, "/raw_deck.pdf", "/deck_text.json");
    DistinctUnder(base, "/raw_deck.pdf", "/deck_summary.json");
    DistinctUnder(base, "/deck_text.json", "/deck_summary.json");
  }

  /** The text extraction stores for an attached file the parser accepts: `result.text || ""`. */
  function ExtractedText(bytes: seq<byte>, env: Env): string {
    if env.parsePdf(bytes).Parsed? then PdfExtractor.TextOrEmpty(env.parsePdf(bytes).text) else ""
  }

  /**
    The attached-deck branch: upload the bytes to `raw_deck.pdf`, extract the text
    (failures tolerated), then summarize (failures swallowed). Extraction reads back
    the bytes just uploaded, so it yields a text key exactly when the parser accepts
    the attached file. Summarizing reads `deck_text.json` whether or not extraction
    succeeded, so a failed extraction leaves it to whatever the folder already held.
   */
  function DeckSteps(s: Store, base: string, deck: Option<seq<byte>>, env: Env): (r: DeckStage)
    ensures r.deckPath.Some? <==> deck.Some?
    ensures deck.None? ==> r.writes == [] && r.deckTextKey.None?
    ensures deck.Some? ==>
      && r.deckPath == Some(PdfExtractor.PdfKey(base))
      && |r.writes| >= 1 && r.writes[0] == UploadBlob(PdfExtractor.PdfKey(base), deck.value)
    ensures r.deckTextKey.Some? <==> deck.Some? && env.parsePdf(deck.value).Parsed?
    ensures r.deckTextKey.Some? ==> r.deckTextKey.value == PdfExtractor.TextKey(base)
    ensures forall w :: w in r.writes ==> IsDeckKey(base, w.key)
    ensures |r.writes| <= 3
  {
    match deck
    case None => DeckStage([], None, None)
    case Some(bytes) =>
      var pdfKey := PdfExtractor.PdfKey(base);
      var upload := UploadBlob(pdfKey, bytes);
      var s1 := Apply(s, upload);
      assert GetBlobBuffer(s1, pdfKey) == Success(bytes);
      var extraction := PdfExtractor.ExtractAndStoreDeckTextSafe(s1, base, env.parsePdf, env.extractedAt);
      var writes := [upload] + extraction.writes + SummaryWrites(ApplyAll(s1, extraction.writes), base, env);
      DeckStage(writes, Some(pdfKey), extraction.key)
  }

  /**
    What the deck branch writes after the upload: the extracted text's payload second,
    when extraction succeeds, and a deck summary exactly when the summarizer finds
    usable text and its oracle answers. A failed extraction leaves the summarizer with
    whatever `deck_text.json` the folder already held.
   */
  lemma DeckStepsWrites(s: Store, base: string, bytes: seq<byte>, env: Env)
    ensures var r := DeckSteps(s, base, Some(bytes), env);
      r.deckTextKey.Some? ==>
        |r.writes| >= 2
        && r.writes[1] == PutJson(PdfExtractor.TextKey(base), PdfExtractor.DeckTextDoc(env.extractedAt, ExtractedText(bytes, env)))
    ensures var r := DeckSteps(s, base, Some(bytes), env);
      Written(r.writes, DeckSummarizer.SummaryKey(base)) <==>
        env.summaryReply.Answered?
        && if r.deckTextKey.Some? then |Text.Trim(ExtractedText(bytes, env))| > 0
           else DeckSummarizer.UsableText(s, base).Some?
  {
    var pdfKey := PdfExtractor.PdfKey(base);
    var upload := UploadBlob(pdfKey, bytes);
    var s1 := Apply(s, upload);
    var extraction := PdfExtractor.ExtractAndStoreDeckTextSafe(s1, base, env.parsePdf, env.extractedAt);
    var summary := SummaryWrites(ApplyAll(s1, extraction.writes), base, env);
    assert DeckSteps(s, base, Some(bytes), env) == DeckStage([upload] + extraction.writes + summary, Some(pdfKey), extraction.key);
    ArtifactKeysDistinct(base);
    assert forall w :: w in [upload] + extraction.writes ==> w.key != DeckSummarizer.SummaryKey(base);
    SummaryAfterExtraction(s, base, bytes, env);
    SummaryWrittenOnlyBySummarizer(base, [upload] + extraction.writes, summary);
    if extraction.key.Some? {
      assert GetBlobBuffer(s1, pdfKey) == Success(bytes);
      assert ([upload] + extraction.writes + summary)[1] == extraction.writes[0];
    }
  }

  /** Whether `summarizeDeck` writes, in terms of the attached bytes and what the folder held before the upload. */
  lemma SummaryAfterExtraction(s: Store, base: string, bytes: seq<byte>, env: Env)
    ensures var s1 := Apply(s, UploadBlob(PdfExtractor.PdfKey(base), bytes));
      var extraction := PdfExtractor.ExtractAndStoreDeckTextSafe(s1, base, env.parsePdf, env.extractedAt);
      SummaryWrites(ApplyAll(s1, extraction.writes), base, env) != [] <==>
        env.summaryReply.Answered?
        && if extraction.key.Some? then |Text.Trim(ExtractedText(bytes, env))| > 0
           else DeckSummarizer.UsableText(s, base).Some?
  {
    ArtifactKeysDistinct(base);
    var textKey := PdfExtractor.TextKey(base);
    var s1 := Apply(s, UploadBlob(PdfExtractor.PdfKey(base), bytes));
    assert GetBlobBuffer(s1, PdfExtractor.PdfKey(base)) == Success(bytes);
    var extraction := PdfExtractor.ExtractAndStoreDeckTextSafe(s1, base, env.parsePdf, env.extractedAt);
    var s2 := ApplyAll(s1, extraction.writes);
    if extraction.key.Some? {
      var text := ExtractedText(bytes, env);
      assert extraction.writes == [PutJson(textKey, PdfExtractor.DeckTextDoc(env.extractedAt, text))];
      assert ReadJson(s2, textKey) == Success(PdfExtractor.DeckTextDoc(env.extractedAt, text));
      assert Get(ReadJson(s2, textKey).value, "text") == Some(JString(text));
    } else {
      assert s2 == s1;
      assert ReadJson(s1, textKey) == ReadJson(s, textKey);
    }
  }

  /** Among deck writes, only the summarizer's go to `deck_summary.json`. */
  lemma SummaryWrittenOnlyBySummarizer(base: string, before: seq<Write>, summary: seq<Write>)
    requires forall w :: w in before ==> w.key != DeckSummarizer.SummaryKey(base)
    requires forall w :: w in summary ==> w.key == DeckSummarizer.SummaryKey(base)
    ensures Written(before + summary, DeckSummarizer.SummaryKey(base)) <==> summary != []
  {
    WrittenConcat(before, summary, DeckSummarizer.SummaryKey(base));
    NotWritten(before, DeckSummarizer.SummaryKey(base));
    if summary != [] {
      assert summary[0] in summary;
    }
  }

  /** The writes `summarizeDeck` makes on the store as it stands after extraction. */
  function SummaryWrites(s: Store, base: string, env: Env): (ws: seq<Write>)
    ensures forall w :: w in ws ==> w.key == DeckSummarizer.SummaryKey(base)
  {
    DeckSummarizer.SummarizeDeck(s, base, env.summaryReply, env.summarizedAt).writes
  }

  /** The `deck_summary.json` read, made only when extraction returned a key; its result is not used afterwards. */
  function ReadDeckSummary(s: Store, base: string, deckTextKey: Option<string>): (r: SummaryRead)
    ensures r.NotRead? <==> deckTextKey.None?
    ensures r.ReadFailed? <==>
      deckTextKey.Some?
      && (ReadJson(s, DeckSummarizer.SummaryKey(base)).Failure? || ReadJson(s, DeckSummarizer.SummaryKey(base)).value == JNull)
    ensures r.ReadSummary? ==>
      && ReadJson(s, DeckSummarizer.SummaryKey(base)).Success?
      && r.summary == Get(ReadJson(s, DeckSummarizer.SummaryKey(base)).value, "summary")
  {
    if deckTextKey.None? then NotRead
    else
      match ReadJson(s, DeckSummarizer.SummaryKey(base))
      case Failure(_) => ReadFailed
      case Success(doc) =>
        match Read(doc, "summary")
        case Failure(_) => ReadFailed
        case Success(summary) => ReadSummary(summary)
  }

  /** The summary read on the store as it stands after the deck branch. */
  function SummaryReadAfter(s: Store, base: string, deck: DeckStage): (r: SummaryRead)
    ensures r.NotRead? <==> deck.deckTextKey.None?
  {
    ReadDeckSummary(ApplyAll(s, deck.writes), base, deck.deckTextKey)
  }

  /**
    The handler past a successful validation: the raw input is written first, then
    the deck branch's writes, then, exactly when scoring succeeds, the score last.
   */
  function Accepted(s: Store, intake: IntakeSchema.Intake, deck: Option<seq<byte>>, env: Env, outcome: Result<ScoreOutputSchema.ScoreOutput, LlmScorer.ScoreError>): (r: Run)
    ensures r.response.requestId == env.requestId
    ensures |r.writes| >= 1
    ensures r.writes[0] == PutJson(InputKey(BasePath(env.timestamp, env.requestId)), RawInputDoc(env.requestId, env.timestamp, intake))
    ensures r.response.Scored? <==> outcome.Success?
    ensures r.response.Rejected? ==> r.response.reason == ScoringFailed(outcome.error)
    ensures r.response.Scored? ==>
      && r.response.submittedAt == env.timestamp
      && r.response.score == outcome.value
      && r.writes[|r.writes| - 1] == PutJson(OutputKey(BasePath(env.timestamp, env.requestId)), ScoreDoc(env.requestId, env.scoredAt, r.response.score))
  {
    var base := BasePath(env.timestamp, env.requestId);
    var input := PutJson(InputKey(base), RawInputDoc(env.requestId, env.timestamp, intake));
    Conclude(s, intake, env, DeckSteps(Apply(s, input), base, deck, env), outcome)
  }

  /** The writes of an accepted submission: the raw input, the deck branch's writes, and the score when there is one. */
  function AcceptedWrites(base: string, env: Env, intake: IntakeSchema.Intake, deckWrites: seq<Write>,
                          outcome: Result<ScoreOutputSchema.ScoreOutput, LlmScorer.ScoreError>): seq<Write>
  {
    [PutJson(InputKey(base), RawInputDoc(env.requestId, env.timestamp, intake))] + deckWrites
    + if outcome.Success? then [PutJson(OutputKey(base), ScoreDoc(env.requestId, env.scoredAt, outcome.value))] else []
  }

  /** An accepted submission once its deck branch has run as `stage`. */
  function Conclude(s: Store, intake: IntakeSchema.Intake, env: Env, stage: DeckStage,
                    outcome: Result<ScoreOutputSchema.ScoreOutput, LlmScorer.ScoreError>): (r: Run)
    ensures r.writes == AcceptedWrites(BasePath(env.timestamp, env.requestId), env, intake, stage.writes, outcome)
  {
    var base := BasePath(env.timestamp, env.requestId);
    var s1 := Apply(s, PutJson(InputKey(base), RawInputDoc(env.requestId, env.timestamp, intake)));
    var writes := AcceptedWrites(base, env, intake, stage.writes, outcome);
    var summaryRead := SummaryReadAfter(s1, base, stage);
    if outcome.Failure? then Run(writes, summaryRead, Rejected(env.requestId, ScoringFailed(outcome.error)))
    else
      var paths := BlobPaths(InputKey(base), OutputKey(base), stage.deckPath, stage.deckTextKey);
      Run(writes, summaryRead, Scored(env.requestId, env.timestamp, paths, outcome.value))
  }

  /**
    `POST /score-investment`. A form the Intake schema rejects is answered 400 with its
    issues and nothing is written; otherwise the submission proceeds as `Accepted`.
   */
  function ScoreInvestment(s: Store, sub: Submission, env: Env): (r: Run)
    ensures r.response.requestId == env.requestId
    ensures Status(r.response) == 200 <==>
      && IntakeSchema.Validate(sub.body, env.checks).Success?
      && LlmScorer.ScoreDeal(IntakeSchema.Validate(sub.body, env.checks).value, env.scoreReplies, env.parseJson).outcome.Success?
    ensures r.writes == [] <==> IntakeSchema.Validate(sub.body, env.checks).Failure?
    ensures r.response.Rejected? && r.response.reason.InvalidIntake? <==> IntakeSchema.Validate(sub.body, env.checks).Failure?
    ensures r.response.Rejected? && r.response.reason.InvalidIntake? ==>
      r.response.reason.issues == IntakeSchema.Issues(sub.body, env.checks)
    ensures IntakeSchema.Validate(sub.body, env.checks).Success? ==>
      var intake := IntakeSchema.Validate(sub.body, env.checks).value;
      r == Accepted(s, intake, sub.deck, env, LlmScorer.ScoreDeal(intake, env.scoreReplies, env.parseJson).outcome)
  {
    match IntakeSchema.Validate(sub.body, env.checks)
    case Failure(issues) => Run([], NotRead, Rejected(env.requestId, InvalidIntake(issues)))
    case Success(intake) => Accepted(s, intake, sub.deck, env, LlmScorer.ScoreDeal(intake, env.scoreReplies, env.parseJson).outcome)
  }

  // ---------------------------------------------------------------------------
  // Properties of a run
  // ---------------------------------------------------------------------------

  /** None of this submission's keys is in the store yet. */
  predicate Fresh(s: Store, base: string) {
    forall k :: IsArtifactKey(base, k) ==> k !in s
  }

  /** Every write of an accepted submission goes to one of the five keys of its folder. */
  lemma WritesStayInFolder(s: Store, intake: IntakeSchema.Intake, deck: Option<seq<byte>>, env: Env,
                           outcome: Result<ScoreOutputSchema.ScoreOutput, LlmScorer.ScoreError>)
    ensures forall w :: w in Accepted(s, intake, deck, env, outcome).writes ==> IsArtifactKey(BasePath(env.timestamp, env.requestId), w.key)
  {
  }

  /** `deck_summary.json` is read exactly when extraction of an attached deck returned the text key. */
  /** As written, a summary the summarizer stores cannot be read back by the route: the read fails. */
  lemma SummaryAsWrittenUnreadable(s: Store, base: string, reply: Reply, createdAt: string, textKey: string)
    requires DeckSummarizer.SummarizeDeckAsWritten(s, base, reply, createdAt).summary.Some?
    ensures var r := DeckSummarizer.SummarizeDeckAsWritten(s, base, reply, createdAt);
      ReadDeckSummary(ApplyAll(s, r.writes), base, Some(textKey)) == ReadFailed
  {
  }

  /** With the upload declaring the length of the text it sends, the route reads back the summary stored. */
  lemma SummaryReadBack(s: Store, base: string, reply: Reply, createdAt: string, textKey: string)
    requires DeckSummarizer.SummarizeDeck(s, base, reply, createdAt).summary.Some?
    ensures var r := DeckSummarizer.SummarizeDeck(s, base, reply, createdAt);
      ReadDeckSummary(ApplyAll(s, r.writes), base, Some(textKey)) == ReadSummary(Some(JString(r.summary.value)))
  {
  }

  lemma SummaryReadOnlyWithTextKey(s: Store, intake: IntakeSchema.Intake, deck: Option<seq<byte>>, env: Env,
                                   outcome: Result<ScoreOutputSchema.ScoreOutput, LlmScorer.ScoreError>)
    ensures Accepted(s, intake, deck, env, outcome).summaryRead.NotRead? <==> deck.None? || !env.parsePdf(deck.value).Parsed?
  {
  }

  /**
    `blob_paths` of a scored answer: `input` and `output` always, `deck` exactly when a
    file was attached, `deck_text` exactly when extraction of that file returned a key.
   */
  lemma BlobPathsAssembly(s: Store, intake: IntakeSchema.Intake, deck: Option<seq<byte>>, env: Env,
                        outcome: Result<ScoreOutputSchema.ScoreOutput, LlmScorer.ScoreError>)
    requires outcome.Success?
    ensures var r := Accepted(s, intake, deck, env, outcome);
      var base := BasePath(env.timestamp, env.requestId);
      && r.response.blobPaths.input == InputKey(base)
      && r.response.blobPaths.output == OutputKey(base)
      && (r.response.blobPaths.deck.Some? <==> deck.Some?)
      && (deck.Some? ==> r.response.blobPaths.deck.value == PdfExtractor.PdfKey(base))
      && (r.response.blobPaths.deckText.Some? <==> deck.Some? && env.parsePdf(deck.value).Parsed?)
      && (r.response.blobPaths.deckText.Some? ==> r.response.blobPaths.deckText.value == PdfExtractor.TextKey(base))
  {
  }

  /** `score.json` is written exactly when the answer is a score; a failed scoring leaves no score behind. */
  lemma ScoreWrittenIffScored(s: Store, intake: IntakeSchema.Intake, deck: Option<seq<byte>>, env: Env,
                              outcome: Result<ScoreOutputSchema.ScoreOutput, LlmScorer.ScoreError>)
    ensures var r := Accepted(s, intake, deck, env, outcome);
      Written(r.writes, OutputKey(BasePath(env.timestamp, env.requestId))) <==> r.response.Scored?
  {
    var base := BasePath(env.timestamp, env.requestId);
    var input := PutJson(InputKey(base), RawInputDoc(env.requestId, env.timestamp, intake));
    var stage := DeckSteps(Apply(s, input), base, deck, env);
    ArtifactKeysDistinct(base);
    WrittenSplit(base, env, intake, stage.writes, outcome, OutputKey(base));
    NotWritten(stage.writes, OutputKey(base));
  }

  /** `raw_deck.pdf` is written exactly when a file is attached. */
  lemma DeckWrittenIffAttached(s: Store, intake: IntakeSchema.Intake, deck: Option<seq<byte>>, env: Env,
                               outcome: Result<ScoreOutputSchema.ScoreOutput, LlmScorer.ScoreError>)
    ensures var r := Accepted(s, intake, deck, env, outcome);
      Written(r.writes, PdfExtractor.PdfKey(BasePath(env.timestamp, env.requestId))) <==> deck.Some?
  {
    var base := BasePath(env.timestamp, env.requestId);
    var input := PutJson(InputKey(base), RawInputDoc(env.requestId, env.timestamp, intake));
    var stage := DeckSteps(Apply(s, input), base, deck, env);
    ArtifactKeysDistinct(base);
    WrittenSplit(base, env, intake, stage.writes, outcome, PdfExtractor.PdfKey(base));
    if deck.Some? {
      assert stage.writes[0].key == PdfExtractor.PdfKey(base);
    }
  }

  /** A key is written by an accepted submission when it is the input key, a key of the deck branch, or the score key of a success. */
  lemma WrittenSplit(base: string, env: Env, intake: IntakeSchema.Intake, deckWrites: seq<Write>,
                     outcome: Result<ScoreOutputSchema.ScoreOutput, LlmScorer.ScoreError>, k: string)
    ensures Written(AcceptedWrites(base, env, intake, deckWrites, outcome), k) <==>
      k == InputKey(base) || Written(deckWrites, k) || (outcome.Success? && k == OutputKey(base))
  {
    var input := PutJson(InputKey(base), RawInputDoc(env.requestId, env.timestamp, intake));
    var tail := if outcome.Success? then [PutJson(OutputKey(base), ScoreDoc(env.requestId, env.scoredAt, outcome.value))] else [];
    assert AcceptedWrites(base, env, intake, deckWrites, outcome) == ([input] + deckWrites) + tail;
    WrittenConcat([input] + deckWrites, tail, k);
    WrittenConcat([input], deckWrites, k);
    assert Written([input], k) <==> k == InputKey(base) by {
      assert [input][0] == input;
    }
    if outcome.Success? {
      assert Written(tail, k) <==> k == OutputKey(base) by {
        assert tail[0].key == OutputKey(base);
      }
    }
  }

  /** Only the first of these writes goes to `raw_input.json` when the deck branch writes only deck keys. */
  lemma InputWrittenOnce(base: string, env: Env, intake: IntakeSchema.Intake, deckWrites: seq<Write>,
                         outcome: Result<ScoreOutputSchema.ScoreOutput, LlmScorer.ScoreError>)
    requires forall w :: w in deckWrites ==> IsDeckKey(base, w.key)
    ensures var ws := AcceptedWrites(base, env, intake, deckWrites, outcome);
      forall j :: 0 < j < |ws| ==> ws[j].key != InputKey(base)
  {
    ArtifactKeysDistinct(base);
    var ws := AcceptedWrites(base, env, intake, deckWrites, outcome);
    forall j | 0 < j < |ws| ensures ws[j].key != InputKey(base) {
      if j <= |deckWrites| {
        assert ws[j] == deckWrites[j - 1];
        assert deckWrites[j - 1] in deckWrites;
      }
    }
  }

  /** After a scored run the store holds the raw input and the very score the answer carries. */
  lemma StoredRecordsMatchResponse(s: Store, intake: IntakeSchema.Intake, deck: Option<seq<byte>>, env: Env,
                                   outcome: Result<ScoreOutputSchema.ScoreOutput, LlmScorer.ScoreError>)
    requires Accepted(s, intake, deck, env, outcome).response.Scored?
    ensures var r := Accepted(s, intake, deck, env, outcome);
      var after := ApplyAll(s, r.writes);
      var base := BasePath(env.timestamp, env.requestId);
      && ReadJson(after, InputKey(base)) == Success(RawInputDoc(env.requestId, env.timestamp, intake))
      && ReadJson(after, OutputKey(base)) == Success(ScoreDoc(env.requestId, env.scoredAt, r.response.score))
      && Get(ReadJson(after, OutputKey(base)).value, "score") == Some(ScoreOutputSchema.ToValue(r.response.score))
  {
    var base := BasePath(env.timestamp, env.requestId);
    var input := PutJson(InputKey(base), RawInputDoc(env.requestId, env.timestamp, intake));
    var stage := DeckSteps(Apply(s, input), base, deck, env);
    InputWrittenOnce(base, env, intake, stage.writes, outcome);
    WrittenOnce(s, AcceptedWrites(base, env, intake, stage.writes, outcome), 0);
  }

  lemma AcceptedWritesOnlyArtifacts(s: Store, intake: IntakeSchema.Intake, deck: Option<seq<byte>>, env: Env,
                                    outcome: Result<ScoreOutputSchema.ScoreOutput, LlmScorer.ScoreError>, k: string)
    requires !IsArtifactKey(BasePath(env.timestamp, env.requestId), k)
    ensures !Written(Accepted(s, intake, deck, env, outcome).writes, k)
  {
    WritesStayInFolder(s, intake, deck, env, outcome);
    var ws := Accepted(s, intake, deck, env, outcome).writes;
    forall i | 0 <= i < |ws| ensures ws[i].key != k {
      assert ws[i] in ws;
    }
  }

  /** A run writes nothing outside its own folder's five keys. */
  lemma OtherKeysUnchanged(s: Store, sub: Submission, env: Env, k: string)
    requires !IsArtifactKey(BasePath(env.timestamp, env.requestId), k)
    ensures var after := ApplyAll(s, ScoreInvestment(s, sub, env).writes);
      && (k in after <==> k in s)
      && (k in s ==> after[k] == s[k])
  {
    var ws := ScoreInvestment(s, sub, env).writes;
    if IntakeSchema.Validate(sub.body, env.checks).Success? {
      var intake := IntakeSchema.Validate(sub.body, env.checks).value;
      AcceptedWritesOnlyArtifacts(s, intake, sub.deck, env, LlmScorer.ScoreDeal(intake, env.scoreReplies, env.parseJson).outcome, k);
    }
    assert !Written(ws, k);
  }

  /**
    With no `deck_text.json` in the folder before the deck branch, no deck summary is
    written unless extraction returned the text key.
   */
  lemma SummaryNeedsExtractedText(s: Store, base: string, deck: Option<seq<byte>>, env: Env)
    requires PdfExtractor.TextKey(base) !in s
    requires DeckSteps(s, base, deck, env).deckTextKey.None?
    ensures !Written(DeckSteps(s, base, deck, env).writes, DeckSummarizer.SummaryKey(base))
  {
    assert ReadJson(s, PdfExtractor.TextKey(base)).Failure?;
  }

  /**
    A submission into a folder that held none of its five keys writes a deck summary
    only when extraction returned the text key, which is also when the summary is read back.
   */
  lemma AcceptedSummaryNeedsExtractedText(s: Store, intake: IntakeSchema.Intake, deck: Option<seq<byte>>, env: Env,
                                          outcome: Result<ScoreOutputSchema.ScoreOutput, LlmScorer.ScoreError>)
    requires Fresh(s, BasePath(env.timestamp, env.requestId))
    ensures var r := Accepted(s, intake, deck, env, outcome);
      Written(r.writes, DeckSummarizer.SummaryKey(BasePath(env.timestamp, env.requestId))) ==> !r.summaryRead.NotRead?
  {
    var base := BasePath(env.timestamp, env.requestId);
    ArtifactKeysDistinct(base);
    var s1 := Apply(s, PutJson(InputKey(base), RawInputDoc(env.requestId, env.timestamp, intake)));
    var stage := DeckSteps(s1, base, deck, env);
    var r := Conclude(s, intake, env, stage, outcome);
    assert r == Accepted(s, intake, deck, env, outcome);
    WrittenSplit(base, env, intake, stage.writes, outcome, DeckSummarizer.SummaryKey(base));
    if stage.deckTextKey.None? {
      assert PdfExtractor.TextKey(base) !in s1;
      SummaryNeedsExtractedText(s1, base, deck, env);
    }
  }

  /** Whether and what a response scored, leaving out where things were stored. */
  function Outcome(r: Response): Result<ScoreOutputSchema.ScoreOutput, Rejection> {
    if r.Scored? then Success(r.score) else Failure(r.reason)
  }

  /**
    The deck summary never reaches the answer: runs that differ only in what the
    summarizer's oracle says, or when, answer identically.
   */
  lemma ResponseIgnoresDeckSummary(s: Store, sub: Submission, env: Env, summaryReply: Reply, summarizedAt: string)
    ensures ScoreInvestment(s, sub, env).response
         == ScoreInvestment(s, sub, env.(summaryReply := summaryReply, summarizedAt := summarizedAt)).response
  {
    var env' := env.(summaryReply := summaryReply, summarizedAt := summarizedAt);
    if IntakeSchema.Validate(sub.body, env.checks).Success? {
      var intake := IntakeSchema.Validate(sub.body, env.checks).value;
      var outcome := LlmScorer.ScoreDeal(intake, env.scoreReplies, env.parseJson).outcome;
      AcceptedIgnoresDeckSummary(s, intake, sub.deck, env, outcome, env');
    }
  }

  lemma AcceptedIgnoresDeckSummary(s: Store, intake: IntakeSchema.Intake, deck: Option<seq<byte>>, env: Env,
                                   outcome: Result<ScoreOutputSchema.ScoreOutput, LlmScorer.ScoreError>, env': Env)
    requires env' == env.(summaryReply := env'.summaryReply, summarizedAt := env'.summarizedAt)
    ensures Accepted(s, intake, deck, env, outcome).response == Accepted(s, intake, deck, env', outcome).response
  {
    var base := BasePath(env.timestamp, env.requestId);
    var s1 := Apply(s, PutJson(InputKey(base), RawInputDoc(env.requestId, env.timestamp, intake)));
    var a := DeckSteps(s1, base, deck, env);
    var b := DeckSteps(s1, base, deck, env');
    assert a.deckPath == b.deckPath && a.deckTextKey == b.deckTextKey;
  }

  /**
    The score does not depend on the deck at all: with the same form, the same request
    and the same scoring oracle, any deck (or none), parser and summarizer give the same
    score or the same rejection.
   */
  lemma ScoreIgnoresDeck(s: Store, sub: Submission, env: Env, deck: Option<seq<byte>>,
                         parsePdf: PdfExtractor.PdfParser, summaryReply: Reply)
    ensures Outcome(ScoreInvestment(s, sub, env).response)
         == Outcome(ScoreInvestment(s, sub.(deck := deck), env.(parsePdf := parsePdf, summaryReply := summaryReply)).response)
  {
  }
}

=== FILE: score_output.dfy ===
/**
  The Score Output schema: an overall integer score, four category evaluations
  (each an object with an integer score, a reasoning string and string evidence),
  a confidence in [0, 1], a summary, key risks, a recommended next step from a fixed
  enum, and a pass flag. As with any `z.object`, undeclared keys are accepted and
  dropped from the parsed result.
 */
module ScoreOutputSchema {
  import opened Wrappers
  import opened Json
  import opened Zod

  datatype Category = Category(score: int, reasoning: string, evidence: seq<string>)

  datatype NextStep = No | FollowUp | Diligence

  datatype ScoreOutput = ScoreOutput(
    overallScore: int,
    market: Category,
    financials: Category,
    team: Category,
    product: Category,
    confidence: real,
    summary: string,
    keyRisks: seq<string>,
    nextStep: NextStep,
    pass: bool)

  const NextStepNames: seq<string> := ["no", "follow-up", "diligence"]
  const TopKeys: set<string> :=
    {"overall_score", "category_scores", "confidence", "summary", "key_risks", "recommended_next_step", "pass"}
  const CategoryKeys: set<string> := {"market", "financials", "team", "product"}
  const CategoryFields: set<string> := {"score", "reasoning", "evidence"}

  // ---------------------------------------------------------------------------
  // What the schema accepts, stated declaratively
  // ---------------------------------------------------------------------------

  predicate IsCategory(v: Option<Value>) {
    && v.Some? && v.value.JObject?
    && IsIntIn(Get(v.value, "score"), 0, 5)
    && IsString(Get(v.value, "reasoning"))
    && IsStringArray(Get(v.value, "evidence"))
  }

  predicate IsCategoryScores(v: Option<Value>) {
    && v.Some? && v.value.JObject?
    && IsCategory(Get(v.value, "market"))
    && IsCategory(Get(v.value, "financials"))
    && IsCategory(Get(v.value, "team"))
    && IsCategory(Get(v.value, "product"))
  }

  /** A document the Score Output schema accepts. */
  predicate Conforms(v: Value) {
    && v.JObject?
    && IsIntIn(Get(v, "overall_score"), 0, 20)
    && IsCategoryScores(Get(v, "category_scores"))
    && IsRealIn(Get(v, "confidence"), 0.0, 1.0)
    && IsString(Get(v, "summary"))
    && IsStringArray(Get(v, "key_risks"))
    && IsOneOf(Get(v, "recommended_next_step"), NextStepNames)
    && IsBool(Get(v, "pass"))
  }

  // ---------------------------------------------------------------------------
  // The issues zod collects, field by field in declaration order
  // ---------------------------------------------------------------------------

  function CategoryIssues(path: seq<PathItem>, v: Option<Value>): (r: seq<Issue>)
    ensures r == [] <==> IsCategory(v)
    ensures Under(r, path)
  {
    if !(v.Some? && v.value.JObject?) then TypeIssue(path, v)
    else
      var a := IntRangeIssues(path + [Key("score")], Get(v.value, "score"), 0, 5);
      var b := StringIssues(path + [Key("reasoning")], Get(v.value, "reasoning"), _ => true, InvalidType);
      var c := StringArrayIssues(path + [Key("evidence")], Get(v.value, "evidence"));
      UnderExtend(a, path, Key("score"));
      UnderExtend(b, path, Key("reasoning"));
      UnderExtend(c, path, Key("evidence"));
      a + b + c
  }

  lemma UnderExtend(issues: seq<Issue>, path: seq<PathItem>, item: PathItem)
    requires Under(issues, path + [item])
    ensures Under(issues, path)
  {
    forall i | 0 <= i < |issues| ensures issues[i].path[..|path|] == path {
      assert issues[i].path[..|path|] == issues[i].path[..|path| + 1][..|path|];
    }
  }

  function CategoryScoresIssues(path: seq<PathItem>, v: Option<Value>): (r: seq<Issue>)
    ensures r == [] <==> IsCategoryScores(v)
    ensures Under(r, path)
  {
    if !(v.Some? && v.value.JObject?) then TypeIssue(path, v)
    else
      var a := CategoryIssues(path + [Key("market")], Get(v.value, "market"));
      var b := CategoryIssues(path + [Key("financials")], Get(v.value, "financials"));
      var c := CategoryIssues(path + [Key("team")], Get(v.value, "team"));
      var d := CategoryIssues(path + [Key("product")], Get(v.value, "product"));
      UnderExtend(a, path, Key("market"));
      UnderExtend(b, path, Key("financials"));
      UnderExtend(c, path, Key("team"));
      UnderExtend(d, path, Key("product"));
      a + b + c + d
  }

  /** Every issue zod reports for `v` against the Score Output schema. */
  function Issues(v: Value): (r: seq<Issue>)
    ensures r == [] <==> Conforms(v)
  {
    if !v.JObject? then TypeIssue([], Some(v))
    else
      IntRangeIssues([Key("overall_score")], Get(v, "overall_score"), 0, 20)
      + CategoryScoresIssues([Key("category_scores")], Get(v, "category_scores"))
      + RealRangeIssues([Key("confidence")], Get(v, "confidence"), 0.0, 1.0)
      + StringIssues([Key("summary")], Get(v, "summary"), _ => true, InvalidType)
      + StringArrayIssues([Key("key_risks")], Get(v, "key_risks"))
      + EnumIssues([Key("recommended_next_step")], Get(v, "recommended_next_step"), NextStepNames)
      + BoolIssues([Key("pass")], Get(v, "pass"))
  }

  // ---------------------------------------------------------------------------
  // The parsed result and its JSON form
  // ---------------------------------------------------------------------------

  predicate ValidCategory(c: Category) {
    0 <= c.score <= 5
  }

  /** The ranges every parsed Score Output satisfies. */
  predicate Valid(s: ScoreOutput) {
    && 0 <= s.overallScore <= 20
    && ValidCategory(s.market) && ValidCategory(s.financials)
    && ValidCategory(s.team) && ValidCategory(s.product)
    && 0.0 <= s.confidence <= 1.0
  }

  function NextStepName(n: NextStep): (name: string)
    ensures name in NextStepNames
  {
    match n
    case No => "no"
    case FollowUp => "follow-up"
    case Diligence => "diligence"
  }

  function NextStepNamed(name: string): (n: NextStep)
    requires name in NextStepNames
    ensures NextStepName(n) == name
  {
    if name == "no" then No else if name == "follow-up" then FollowUp else Diligence
  }

  function Strings(ss: seq<string>): (r: seq<Value>)
    ensures |r| == |ss| && AllStrings(r)
    ensures forall i :: 0 <= i < |ss| ==> r[i] == JString(ss[i])
  {
    seq(|ss|, i requires 0 <= i < |ss| => JString(ss[i]))
  }

  function Texts(items: seq<Value>): (r: seq<string>)
    requires AllStrings(items)
    ensures Strings(r) == items
  {
    seq(|items|, i requires 0 <= i < |items| => items[i].s)
  }

  function CategoryToValue(c: Category): Value {
    JObject(map[
      "score" := JNumber(c.score as real),
      "reasoning" := JString(c.reasoning),
      "evidence" := JArray(Strings(c.evidence))])
  }

  /** The object zod returns for an accepted document: the declared keys only. */
  function ToValue(s: ScoreOutput): Value {
    JObject(map[
      "overall_score" := JNumber(s.overallScore as real),
      "category_scores" := JObject(map[
        "market" := CategoryToValue(s.market),
        "financials" := CategoryToValue(s.financials),
        "team" := CategoryToValue(s.team),
        "product" := CategoryToValue(s.product)]),
      "confidence" := JNumber(s.confidence),
      "summary" := JString(s.summary),
      "key_risks" := JArray(Strings(s.keyRisks)),
      "recommended_next_step" := JString(NextStepName(s.nextStep)),
      "pass" := JBool(s.pass)])
  }

  function CategoryOf(v: Value): (c: Category)
    requires IsCategory(Some(v))
    ensures ValidCategory(c)
  {
    Category(
      v.fields["score"].n.Floor,
      v.fields["reasoning"].s,
      Texts(v.fields["evidence"].items))
  }

  function Build(v: Value): (s: ScoreOutput)
    requires Conforms(v)
    ensures Valid(s)
  {
    var cs := v.fields["category_scores"];
    ScoreOutput(
      v.fields["overall_score"].n.Floor,
      CategoryOf(cs.fields["market"]),
      CategoryOf(cs.fields["financials"]),
      CategoryOf(cs.fields["team"]),
      CategoryOf(cs.fields["product"]),
      v.fields["confidence"].n,
      v.fields["summary"].s,
      Texts(v.fields["key_risks"].items),
      NextStepNamed(v.fields["recommended_next_step"].s),
      v.fields["pass"].b)
  }

  // ---------------------------------------------------------------------------
  // Dropping undeclared keys, the reference for what parsing returns
  // ---------------------------------------------------------------------------

  function StripCategory(v: Value): Value {
    if v.JObject? then JObject(Restrict(v.fields, CategoryFields)) else v
  }

  function StripCategories(v: Value): Value {
    if v.JObject? then JObject(map k | k in v.fields && k in CategoryKeys :: StripCategory(v.fields[k])) else v
  }

  /** `v` with every key the schema does not declare removed, at the top level and inside the categories. */
  function Strip(v: Value): Value {
    if v.JObject? then
      JObject(map k | k in v.fields && k in TopKeys ::
        if k == "category_scores" then StripCategories(v.fields[k]) else v.fields[k])
    else v
  }

  lemma CategoryRoundTrip(v: Value)
    requires IsCategory(Some(v))
    ensures CategoryToValue(CategoryOf(v)) == StripCategory(v)
  {
    var c := CategoryOf(v);
    assert JNumber(c.score as real) == v.fields["score"];
    assert JArray(Strings(c.evidence)) == v.fields["evidence"];
    assert CategoryToValue(c).fields == Restrict(v.fields, CategoryFields);
  }

  /** With all four categories present, stripping the category object strips each category in place. */
  lemma StripAllCategories(cs: Value)
    requires cs.JObject? && CategoryKeys <= cs.fields.Keys
    ensures StripCategories(cs) == JObject(map[
        "market" := StripCategory(cs.fields["market"]),
        "financials" := StripCategory(cs.fields["financials"]),
        "team" := StripCategory(cs.fields["team"]),
        "product" := StripCategory(cs.fields["product"])])
  {
  }

  /** With every declared key present, stripping keeps exactly the declared keys. */
  lemma StripAllKeys(v: Value)
    requires v.JObject? && TopKeys <= v.fields.Keys
    ensures Strip(v) == JObject(map[
      "overall_score" := v.fields["overall_score"],
      "category_scores" := StripCategories(v.fields["category_scores"]),
      "confidence" := v.fields["confidence"],
      "summary" := v.fields["summary"],
      "key_risks" := v.fields["key_risks"],
      "recommended_next_step" := v.fields["recommended_next_step"],
      "pass" := v.fields["pass"]])
  {
  }

  lemma BuildIsStrip(v: Value)
    requires Conforms(v)
    ensures ToValue(Build(v)) == Strip(v)
  {
    var s := Build(v);
    var cs := v.fields["category_scores"];
    CategoryRoundTrip(cs.fields["market"]);
    CategoryRoundTrip(cs.fields["financials"]);
    CategoryRoundTrip(cs.fields["team"]);
    CategoryRoundTrip(cs.fields["product"]);
    StripAllCategories(cs);
    StripAllKeys(v);
    assert JNumber(s.overallScore as real) == v.fields["overall_score"];
    assert JArray(Strings(s.keyRisks)) == v.fields["key_risks"];
  }

  /**
    `ScoreOutputSchema.parse`: success exactly for conforming documents, with every
    collected issue otherwise; an accepted document comes back with its declared
    fields unchanged and its undeclared keys dropped.
   */
  function Validate(v: Value): (r: Result<ScoreOutput, seq<Issue>>)
    ensures r.Success? <==> Conforms(v)
    ensures r.Failure? ==> r.error == Issues(v) && |r.error| > 0
    ensures r.Success? ==> Valid(r.value) && ToValue(r.value) == Strip(v)
  {
    var issues := Issues(v);
    if issues == [] then BuildIsStrip(v); Success(Build(v)) else Failure(issues)
  }

  // ---------------------------------------------------------------------------
  // Properties
  // ---------------------------------------------------------------------------

  lemma CategoryToValueConforms(c: Category)
    requires ValidCategory(c)
    ensures IsCategory(Some(CategoryToValue(c)))
    ensures CategoryOf(CategoryToValue(c)) == c
  {
    assert Texts(Strings(c.evidence)) == c.evidence;
  }

  lemma ToValueCategoriesConform(s: ScoreOutput)
    requires Valid(s)
    ensures IsCategoryScores(Get(ToValue(s), "category_scores"))
  {
    CategoryToValueConforms(s.market);
    CategoryToValueConforms(s.financials);
    CategoryToValueConforms(s.team);
    CategoryToValueConforms(s.product);
  }

  /** What `ToValue` produces from a valid result is a conforming document that builds back to it. */
  lemma ToValueConforms(s: ScoreOutput)
    requires Valid(s)
    ensures Conforms(ToValue(s)) && Build(ToValue(s)) == s
  {
    var v := ToValue(s);
    ToValueCategoriesConform(s);
    CategoryToValueConforms(s.market);
    CategoryToValueConforms(s.financials);
    CategoryToValueConforms(s.team);
    CategoryToValueConforms(s.product);
    assert Texts(Strings(s.keyRisks)) == s.keyRisks;
  }

  /** A parsed Score Output validates again to itself: parsing is a round trip on its own results. */
  lemma ValidateToValue(s: ScoreOutput)
    requires Valid(s)
    ensures Validate(ToValue(s)) == Success(s)
  {
    ToValueConforms(s);
  }

  /** Re-validating an accepted result yields the same result. */
  lemma ValidateIdempotent(v: Value)
    requires Validate(v).Success?
    ensures Validate(ToValue(Validate(v).value)) == Validate(v)
  {
    ValidateToValue(Validate(v).value);
  }

  lemma BareCategoryIssue(path: seq<PathItem>, cs: Value, name: string)
    requires cs.JObject? && name in CategoryKeys
    requires Get(cs, name).Some? && Get(cs, name).value.JNumber?
    ensures Issue(path + [Key(name)], InvalidType) in CategoryScoresIssues(path, Some(cs))
  {
    var target := Issue(path + [Key(name)], InvalidType);
    var a := CategoryIssues(path + [Key("market")], Get(cs, "market"));
    var b := CategoryIssues(path + [Key("financials")], Get(cs, "financials"));
    var c := CategoryIssues(path + [Key("team")], Get(cs, "team"));
    var d := CategoryIssues(path + [Key("product")], Get(cs, "product"));
    assert CategoryScoresIssues(path, Some(cs)) == a + b + c + d;
    if name == "market" {
      assert a == [target];
    } else if name == "financials" {
      assert b == [target];
    } else if name == "team" {
      assert c == [target];
    } else {
      assert d == [target];
    }
  }

  /** A document whose category scores are bare integers, the shape both prompts ask for, is rejected. */
  lemma BareCategoryScoresRejected(v: Value, name: string)
    requires v.JObject? && "category_scores" in v.fields
    requires name in CategoryKeys
    requires Get(v.fields["category_scores"], name).Some? && Get(v.fields["category_scores"], name).value.JNumber?
    ensures Validate(v).Failure?
    ensures Issue([Key("category_scores"), Key(name)], InvalidType) in Validate(v).error
  {
    var p := [Key("category_scores")];
    BareCategoryIssue(p, v.fields["category_scores"], name);
    assert p + [Key(name)] == [Key("category_scores"), Key(name)];
  }

  /** `overall_score` outside the integers 0..20 is rejected, whatever else the document holds. */
  lemma OverallScoreOutOfRangeRejected(v: Value)
    requires Get(v, "overall_score").Some? && Get(v, "overall_score").value.JNumber?
    requires var n := Get(v, "overall_score").value.n; n < 0.0 || n > 20.0 || !IsInteger(n)
    ensures Validate(v).Failure?
  {
  }

  /** A `confidence` outside [0, 1] is rejected. */
  lemma ConfidenceOutOfRangeRejected(v: Value)
    requires Get(v, "confidence").Some? && Get(v, "confidence").value.JNumber?
    requires Get(v, "confidence").value.n < 0.0 || Get(v, "confidence").value.n > 1.0
    ensures Validate(v).Failure?
    ensures v.JObject? ==> Issue([Key("confidence")], if Get(v, "confidence").value.n < 0.0 then TooSmall else TooBig) in Validate(v).error
  {
  }

  /** `recommended_next_step` is accepted only as "no", "follow-up" or "diligence". */
  lemma UnknownNextStepRejected(v: Value)
    requires Get(v, "recommended_next_step").Some?
    requires Get(v, "recommended_next_step").value !in {JString("no"), JString("follow-up"), JString("diligence")}
    ensures Validate(v).Failure?
  {
    assert !IsOneOf(Get(v, "recommended_next_step"), NextStepNames);
  }

  /** The two scoring rules the prompt states and nothing enforces. */
  predicate Inconsistent(s: ScoreOutput) {
    && s.overallScore != s.market.score + s.financials.score + s.team.score + s.product.score
    && s.pass != (s.overallScore >= 13)
  }

  /** An accepted document can contradict the scoring rules: `overall_score` need not be the category sum, nor `pass` agree with the 13-point threshold. */
  lemma InconsistentDocumentAccepted()
    ensures exists v :: Validate(v).Success? && Inconsistent(Validate(v).value)
  {
    var zero := Category(0, "", []);
    var s := ScoreOutput(20, zero, zero, zero, zero, 0.5, "", [], No, false);
    ValidateToValue(s);
    assert Validate(ToValue(s)).value == s;
  }
}

=== FILE: summarize_deck.dfy ===
/**
  The deck summarizer. It reads `{basePath}/deck_text.json`, refuses a text that is
  missing, not a string, or only whitespace, asks the oracle for a summary, and stores
  `{summary, created_at}` at `{basePath}/deck_summary.json`. Every failure is
  swallowed: the function then returns nothing and has written nothing. The oracle's
  summary is stored whatever it is, the empty string included.
 */
module DeckSummarizer {
  import opened Wrappers
  import opened Json
  import opened Text
  import opened BlobStore
  import opened Oracle
  import PdfExtractor

  function SummaryKey(basePath: string): string {
    basePath + "/deck_summary.json"
  }

  function SummaryDoc(summary: string, createdAt: string): Value {
    JObject(map["summary" := JString(summary), "created_at" := JString(createdAt)])
  }

  /**
    The text the summarizer goes on with: `parsed.text` of the stored document when it
    is a string with a non-whitespace character. An unreadable blob, a `null` document
    (reading `.text` throws), a falsy `text` or a blank one (the guard throws), and a
    truthy non-string (`.trim` is not a function) all stop it.
   */
  function UsableText(s: Store, basePath: string): (r: Option<string>)
    ensures r.Some? ==> |Trim(r.value)| > 0
    ensures r.Some? ==>
      ReadJson(s, PdfExtractor.TextKey(basePath)).Success?
      && Get(ReadJson(s, PdfExtractor.TextKey(basePath)).value, "text") == Some(JString(r.value))
    ensures var read := ReadJson(s, PdfExtractor.TextKey(basePath));
      read.Success? && Get(read.value, "text").Some? && Get(read.value, "text").value.JString?
      && |Trim(Get(read.value, "text").value.s)| > 0
      ==> r == Some(Get(read.value, "text").value.s)
  {
    match ReadJson(s, PdfExtractor.TextKey(basePath))
    case Failure(_) => None
    case Success(doc) =>
      match Read(doc, "text")
      case Failure(_) => None
      case Success(text) =>
        if !Truthy(text) then None
        else if !text.value.JString? then None
        else if |Trim(text.value.s)| == 0 then None
        else Some(text.value.s)
  }

  datatype Summarized = Summarized(writes: seq<Write>, summary: Option<string>)

  /**
    `summarizeDeck(basePath)`: a summary exactly when there is usable text and the oracle
    answers; then one write, whose stored summary is the returned one. Otherwise
    nothing is written and nothing is returned.
   */
  function SummarizeDeck(s: Store, basePath: string, reply: Reply, createdAt: string): (r: Summarized)
    ensures r.summary.Some? <==> UsableText(s, basePath).Some? && reply.Answered?
    ensures r.summary.Some? ==>
      r.summary.value == reply.text
      && r.writes == [PutJson(SummaryKey(basePath), SummaryDoc(r.summary.value, createdAt))]
    ensures r.summary.None? ==> r.writes == []
  {
    match UsableText(s, basePath)
    case None => Summarized([], None)
    case Some(text) =>
      match reply
      case CallFailed => Summarized([], None)
      case Answered(summary) =>
        Summarized([PutJson(SummaryKey(basePath), SummaryDoc(summary, createdAt))], Some(summary))
  }

  /** Extracted text that is empty or only whitespace leads to no write and no summary. */
  lemma BlankTextNotSummarized(s: Store, basePath: string, reply: Reply, createdAt: string, text: string)
    requires ReadJson(s, PdfExtractor.TextKey(basePath)).Success?
    requires Get(ReadJson(s, PdfExtractor.TextKey(basePath)).value, "text") == Some(JString(text))
    requires IsBlank(text)
    ensures SummarizeDeck(s, basePath, reply, createdAt) == Summarized([], None)
  {
    TrimEmptyIffBlank(text);
  }

  /** The oracle's answer is not checked: an empty summary is stored and returned like any other. */
  lemma EmptySummaryStored(s: Store, basePath: string, createdAt: string)
    requires UsableText(s, basePath).Some?
    ensures SummarizeDeck(s, basePath, Answered(""), createdAt)
      == Summarized([PutJson(SummaryKey(basePath), SummaryDoc("", createdAt))], Some(""))
  {
  }

  /** Reading the stored summary back gives the returned summary. */
  lemma StoredSummaryIsReturned(s: Store, basePath: string, reply: Reply, createdAt: string)
    requires SummarizeDeck(s, basePath, reply, createdAt).summary.Some?
    ensures var r := SummarizeDeck(s, basePath, reply, createdAt);
      ReadJson(ApplyAll(s, r.writes), SummaryKey(basePath)) == Success(SummaryDoc(r.summary.value, createdAt))
  {
  }

  // ---------------------------------------------------------------------------
  // The summary upload as written
  // ---------------------------------------------------------------------------

  /**
    One member `"key":value` as `JSON.stringify` writes it, key and value already
    serialised. With an indent of two, the member starts a new line indented by two
    spaces, and a space follows the `:`.
   */
  function MemberText(key: string, value: string, indented: bool): string {
    if indented then "\n  " + key + ": " + value
    else key + ":" + value
  }

  /** An object of two members; indented, its `}` goes on a line of its own. */
  function ObjectText(key1: string, value1: string, key2: string, value2: string, indented: bool): string {
    "{" + MemberText(key1, value1, indented) + "," + MemberText(key2, value2, indented)
      + (if indented then "\n}" else "}")
  }

  /** The payload's two keys, serialised. */
  const SummaryField: string := "\"summary\""
  const CreatedAtField: string := "\"created_at\""

  /** `JSON.stringify(payload)` for the payload `{summary, created_at}`. */
  function CompactSummaryText(summary: string, createdAt: string): string {
    ObjectText(SummaryField, QuoteString(summary), CreatedAtField, QuoteString(createdAt), false)
  }

  /** `JSON.stringify(payload, null, 2)`. */
  function PrettySummaryText(summary: string, createdAt: string): string {
    ObjectText(SummaryField, QuoteString(summary), CreatedAtField, QuoteString(createdAt), true)
  }

  /**
    Whatever the summary, the pretty text is nine bytes longer than the compact one,
    and its last two bytes are the line break and the `}` that close it.
   */
  lemma PrettySummaryNineBytesLonger(summary: string, createdAt: string)
    ensures |Utf8(PrettySummaryText(summary, createdAt))| == |Utf8(CompactSummaryText(summary, createdAt))| + 9
    ensures var p := Utf8(PrettySummaryText(summary, createdAt));
      p[|p| - 2..] == [0x0A, 0x7D]
  {
    ObjectBytes(SummaryField, QuoteString(summary), CreatedAtField, QuoteString(createdAt));
  }

  /**
    Indenting a two-member object adds nine bytes: a line break, two spaces of indent
    and a space after `:` for each member, and the line break before `}`.
   */
  lemma ObjectBytes(key1: string, value1: string, key2: string, value2: string)
    ensures |Utf8(ObjectText(key1, value1, key2, value2, true))| == |Utf8(ObjectText(key1, value1, key2, value2, false))| + 9
    ensures var p := Utf8(ObjectText(key1, value1, key2, value2, true));
      p[|p| - 2..] == [0x0A, 0x7D]
  {
    var m1, m2 := MemberText(key1, value1, true), MemberText(key2, value2, true);
    Utf8OfMembers("{", m1, ",", m2, "\n}");
    Utf8OfMembers("{", MemberText(key1, value1, false), ",", MemberText(key2, value2, false), "}");
    MemberBytes(key1, value1);
    MemberBytes(key2, value2);
    ClosingBytes(Utf8("{" + m1 + "," + m2));
  }

  /** Text ending in a line break and `}` ends in their two bytes. */
  lemma ClosingBytes(head: seq<byte>)
    ensures var p := head + Utf8("\n}");
      p[|p| - 2..] == [0x0A, 0x7D]
  {
    assert "\n}"[1..] == "}";
    assert Utf8("\n}") == [0x0A, 0x7D];
  }

  /** The indented member is four bytes longer: the line break, the indent and the space after `:`. */
  lemma MemberBytes(key: string, value: string)
    ensures |Utf8(MemberText(key, value, true))| == |Utf8(MemberText(key, value, false))| + 4
  {
    Utf8Concat("\n  ", key);
    Utf8Concat("\n  " + key, ": ");
    Utf8Concat("\n  " + key + ": ", value);
    Utf8Concat(key, ":");
    Utf8Concat(key + ":", value);
    assert |Utf8("\n  ")| == 3 by {
      assert "\n  "[1..] == "  ";
      assert "  "[1..] == " ";
    }
    assert |Utf8(": ")| == 2 by {
      assert ": "[1..] == " ";
    }
  }

  /** The bytes of a two-member payload text are the bytes of its pieces. */
  lemma Utf8OfMembers(open1: string, q1: string, open2: string, q2: string, close: string)
    ensures Utf8(open1 + q1 + open2 + q2 + close) == Utf8(open1) + Utf8(q1) + Utf8(open2) + Utf8(q2) + Utf8(close)
  {
    Utf8Concat(open1, q1);
    Utf8Concat(open1 + q1, open2);
    Utf8Concat(open1 + q1 + open2, q2);
    Utf8Concat(open1 + q1 + open2 + q2, close);
  }

  /**
    What `summaryBlob.upload(pretty, Buffer.byteLength(compact))` stores when the
    declared length is taken as the body's length: the bytes of the pretty text, as
    many as the compact text has. `PrettySummaryNineBytesLonger` says what is lost.
   */
  function TruncatedSummaryBytes(summary: string, createdAt: string): (r: seq<byte>)
    ensures |r| == |Utf8(CompactSummaryText(summary, createdAt))|
    ensures |r| + 9 == |Utf8(PrettySummaryText(summary, createdAt))|
    ensures r == Utf8(PrettySummaryText(summary, createdAt))[..|r|]
  {
    PrettySummaryNineBytesLonger(summary, createdAt);
    Utf8(PrettySummaryText(summary, createdAt))[..|Utf8(CompactSummaryText(summary, createdAt))|]
  }

  /**
    `summarizeDeck` as written: the same decisions as `SummarizeDeck`, but the blob at
    `deck_summary.json` holds the cut text under the default content type. The cut
    text is not a JSON document, so the store keeps it as a non-JSON blob.
   */
  function SummarizeDeckAsWritten(s: Store, basePath: string, reply: Reply, createdAt: string): (r: Summarized)
    ensures r.summary == SummarizeDeck(s, basePath, reply, createdAt).summary
    ensures r.summary.Some? ==>
      r.writes == [Write(SummaryKey(basePath), BinaryBlob(TruncatedSummaryBytes(r.summary.value, createdAt), OctetStreamContentType))]
    ensures r.summary.None? ==> r.writes == []
  {
    var corrected := SummarizeDeck(s, basePath, reply, createdAt);
    match corrected.summary
    case None => corrected
    case Some(summary) =>
      Summarized([Write(SummaryKey(basePath), BinaryBlob(TruncatedSummaryBytes(summary, createdAt), OctetStreamContentType))], Some(summary))
  }
}

=== FILE: text.dfy ===
/**
  The JavaScript string operations the routes and services rely on, over `string`
  (a sequence of Unicode scalar values): `startsWith`, `includes`, `indexOf`,
  `replace` with a string pattern, `split` on one character, `trim`, and the
  UTF-16 `length` that `JSON.stringify` payloads record.
 */
module Text {
  import opened Wrappers

  predicate StartsWith(s: string, prefix: string) {
    |prefix| <= |s| && s[..|prefix|] == prefix
  }

  /** `pattern` occurs in `s` starting at index `i`. */
  predicate OccursAt(s: string, pattern: string, i: nat) {
    i + |pattern| <= |s| && s[i..i + |pattern|] == pattern
  }

  /** `s.includes(pattern)`. */
  predicate Contains(s: string, pattern: string) {
    exists i: nat :: i <= |s| && OccursAt(s, pattern, i)
  }

  /** The first index at or after `from` where `pattern` occurs. */
  function FindFrom(s: string, pattern: string, from: nat): (r: Option<nat>)
    ensures r.Some? ==> from <= r.value && OccursAt(s, pattern, r.value)
    ensures r.Some? ==> forall j: nat :: from <= j < r.value ==> !OccursAt(s, pattern, j)
    ensures r.None? ==> forall j: nat :: from <= j ==> !OccursAt(s, pattern, j)
    decreases |s| - from
  {
    if |s| < from + |pattern| then None
    else if OccursAt(s, pattern, from) then Some(from)
    else FindFrom(s, pattern, from + 1)
  }

  /** `s.indexOf(pattern)`, with `None` for -1. */
  function IndexOf(s: string, pattern: string): (r: Option<nat>)
    ensures r.Some? <==> Contains(s, pattern)
    ensures r.Some? ==> OccursAt(s, pattern, r.value)
    ensures r.Some? ==> forall j: nat :: j < r.value ==> !OccursAt(s, pattern, j)
  {
    FindFrom(s, pattern, 0)
  }

  /** `s.replace(pattern, '')` with a string pattern: only the FIRST occurrence, wherever it is, is removed. */
  function RemoveFirst(s: string, pattern: string): (r: string)
    ensures !Contains(s, pattern) ==> r == s
    ensures Contains(s, pattern) ==> |r| + |pattern| == |s|
    ensures StartsWith(s, pattern) ==> r == s[|pattern|..]
    ensures Contains(s, pattern) ==>
      exists i: nat :: OccursAt(s, pattern, i) && (forall j: nat :: j < i ==> !OccursAt(s, pattern, j))
        && r == s[..i] + s[i + |pattern|..]
  {
    match IndexOf(s, pattern)
    case None => s
    case Some(i) =>
      assert StartsWith(s, pattern) ==> OccursAt(s, pattern, 0);
      var r := s[..i] + s[i + |pattern|..];
      assert OccursAt(s, pattern, i) && (forall j: nat :: j < i ==> !OccursAt(s, pattern, j)) && r == s[..i] + s[i + |pattern|..];
      r
  }

  /** `s.replace(/\/$/, '')`: one trailing slash is dropped, no more. */
  function DropTrailingSlash(s: string): (r: string)
    ensures |s| > 0 && s[|s| - 1] == '/' ==> r + "/" == s
    ensures !(|s| > 0 && s[|s| - 1] == '/') ==> r == s
  {
    if |s| > 0 && s[|s| - 1] == '/' then s[..|s| - 1] else s
  }

  /** The index of the first `c` in `s`. */
  function CharIndex(s: string, c: char): (i: nat)
    requires c in s
    ensures i < |s| && s[i] == c && c !in s[..i]
  {
    if s[0] == c then 0
    else
      assert c in s[1..] by { var k :| 0 <= k < |s| && s[k] == c; assert s[1..][k - 1] == c; }
      var j := CharIndex(s[1..], c);
      assert s[..j + 1] == [s[0]] + s[1..][..j];
      j + 1
  }

  /** The first `c` is at `k` when `s[k]` is `c` and no earlier character is. */
  lemma {:induction false} CharIndexAt(s: string, c: char, k: nat)
    requires k < |s| && s[k] == c && c !in s[..k]
    ensures CharIndex(s, c) == k
  {
    if k > 0 {
      assert s[..k][0] == s[0];
      assert s[1..][..k - 1] == s[..k][1..];
      CharIndexAt(s[1..], c, k - 1);
    }
  }

  /** The parts joined back with the separator: the inverse of `Split`. */
  function Join(parts: seq<string>, sep: char): string
    requires |parts| >= 1
  {
    if |parts| == 1 then parts[0] else parts[0] + [sep] + Join(parts[1..], sep)
  }

  /** `s.split(sep)` for a one-character separator: never empty, and `Join` restores `s`. */
  function Split(s: string, sep: char): (parts: seq<string>)
    ensures |parts| >= 1
    ensures forall i :: 0 <= i < |parts| ==> sep !in parts[i]
    ensures Join(parts, sep) == s
    decreases |s|
  {
    if sep !in s then [s]
    else
      var i := CharIndex(s, sep);
      var rest := Split(s[i + 1..], sep);
      assert ([s[..i]] + rest)[1..] == rest;
      assert s == s[..i] + [sep] + s[i + 1..];
      [s[..i]] + rest
  }

  /** Splitting a joined sequence of separator-free parts gives the parts back. */
  lemma {:induction false} SplitJoin(parts: seq<string>, sep: char)
    requires |parts| >= 1
    requires forall i :: 0 <= i < |parts| ==> sep !in parts[i]
    ensures Split(Join(parts, sep), sep) == parts
    decreases |parts|
  {
    if |parts| > 1 {
      var s := Join(parts, sep);
      var k := |parts[0]|;
      var tail := Join(parts[1..], sep);
      assert s == parts[0] + [sep] + tail;
      assert s[k] == sep;
      assert s[..k] == parts[0];
      assert s[k + 1..] == tail;
      CharIndexAt(s, sep, k);
      SplitJoin(parts[1..], sep);
      assert Split(s, sep) == [s[..k]] + Split(s[k + 1..], sep);
      assert parts == [parts[0]] + parts[1..];
    }
  }

  /** The characters `String.prototype.trim` removes: ECMAScript WhiteSpace and LineTerminator. */
  predicate IsJsWhitespace(c: char) {
    var n := c as int;
    n == 0x09 || n == 0x0A || n == 0x0B || n == 0x0C || n == 0x0D || n == 0x20
    || n == 0xA0 || n == 0x1680 || (0x2000 <= n <= 0x200A) || n == 0x2028 || n == 0x2029
    || n == 0x202F || n == 0x205F || n == 0x3000 || n == 0xFEFF
  }

  predicate IsBlank(s: string) {
    forall i :: 0 <= i < |s| ==> IsJsWhitespace(s[i])
  }

  function TrimStart(s: string): (r: string)
    ensures |r| <= |s| && r == s[|s| - |r|..]
    ensures IsBlank(s[..|s| - |r|])
    ensures |r| > 0 ==> !IsJsWhitespace(r[0])
  {
    if |s| > 0 && IsJsWhitespace(s[0]) then
      var r := TrimStart(s[1..]);
      assert forall i :: 1 <= i < |s| - |r| ==> s[i] == s[1..][..|s| - 1 - |r|][i - 1];
      r
    else s
  }

  function TrimEnd(s: string): (r: string)
    ensures |r| <= |s| && r == s[..|r|]
    ensures IsBlank(s[|r|..])
    ensures |r| > 0 ==> !IsJsWhitespace(r[|r| - 1])
  {
    if |s| > 0 && IsJsWhitespace(s[|s| - 1]) then
      var r := TrimEnd(s[..|s| - 1]);
      assert s[|r|..] == s[..|s| - 1][|r|..] + [s[|s| - 1]];
      r
    else s
  }

  /** `s.trim()`. */
  function Trim(s: string): string {
    TrimEnd(TrimStart(s))
  }

  /** `s.trim().length === 0` holds exactly when every character of `s` is whitespace. */
  lemma TrimEmptyIffBlank(s: string)
    ensures |Trim(s)| == 0 <==> IsBlank(s)
  {
    var t := TrimStart(s);
    if |Trim(s)| == 0 {
      assert IsBlank(t) by { assert t[0..] == t; }
      assert |t| == 0;
      assert s[..|s|] == s;
    }
    if IsBlank(s) {
      assert |t| == 0;
    }
  }

  /** JavaScript's `length`: UTF-16 code units, two for a character outside the Basic Multilingual Plane. */
  function Utf16Length(s: string): (n: nat)
    ensures |s| <= n <= 2 * |s|
    ensures (forall i :: 0 <= i < |s| ==> s[i] as int < 0x10000) ==> n == |s|
  {
    if |s| == 0 then 0
    else (if s[0] as int < 0x10000 then 1 else 2) + Utf16Length(s[1..])
  }
}

=== FILE: wrappers.dfy ===
/** Option and Result: the absent-value and error-carrying wrappers the rest of the model uses. */
module Wrappers {

  /** A value that may be absent (JavaScript's `undefined`/`null` where the source uses one). */
  datatype Option<+T> = None | Some(value: T)

  /** The outcome of a step that either produces a value or fails (a thrown error in the source). */
  datatype Result<+T, +E> = Success(value: T) | Failure(error: E)
}

=== FILE: zod.dfy ===
/**
  The part of zod's object validation the two schemas use: every failed check adds an
  issue (a path and a code) and validation succeeds only when no issue was added. Each
  primitive check comes with the predicate it decides.
 */
module Zod {
  import opened Wrappers
  import opened Json

  datatype PathItem = Key(name: string) | Index(position: nat)

  datatype IssueCode =
    | Required          // the property is undefined
    | InvalidType       // present, but of the wrong JSON type
    | NotInteger        // `.int()` failed
    | TooSmall          // `.min(...)` failed
    | TooBig            // `.max(...)` failed
    | InvalidEmail      // `.email()` failed
    | InvalidUrl        // `.url()` failed
    | InvalidEnumValue  // a string outside the `z.enum` options

  datatype Issue = Issue(path: seq<PathItem>, code: IssueCode)

  /** All issues sit at or below `path`. */
  predicate Under(issues: seq<Issue>, path: seq<PathItem>) {
    forall i :: 0 <= i < |issues| ==> |path| <= |issues[i].path| && issues[i].path[..|path|] == path
  }

  lemma UnderConcat(a: seq<Issue>, b: seq<Issue>, path: seq<PathItem>)
    requires Under(a, path) && Under(b, path)
    ensures Under(a + b, path)
  {
  }

  /** The one issue a value of the wrong type gets: `Required` when it is undefined. */
  function TypeIssue(path: seq<PathItem>, v: Option<Value>): (r: seq<Issue>)
    ensures |r| == 1 && r[0].path == path
    ensures r[0].code == Required <==> v.None?
  {
    [Issue(path, if v.None? then Required else InvalidType)]
  }

  predicate IsString(v: Option<Value>) {
    v.Some? && v.value.JString?
  }

  /** `z.string()` followed by one refinement (`.email()`, `.url()`, or none when `refined` accepts everything). */
  function StringIssues(path: seq<PathItem>, v: Option<Value>, refined: string -> bool, code: IssueCode): (r: seq<Issue>)
    ensures r == [] <==> IsString(v) && refined(v.value.s)
    ensures |r| <= 1 && Under(r, path)
    ensures forall i :: 0 <= i < |r| ==> r[i].path == path
    ensures r != [] && IsString(v) ==> r == [Issue(path, code)]
  {
    if !IsString(v) then TypeIssue(path, v)
    else if refined(v.value.s) then []
    else [Issue(path, code)]
  }

  predicate IsIntIn(v: Option<Value>, lo: int, hi: int) {
    v.Some? && v.value.JNumber? && IsInteger(v.value.n) && lo as real <= v.value.n <= hi as real
  }

  /** `z.number().int().min(lo).max(hi)`: the three checks run in order and each may add an issue. */
  function IntRangeIssues(path: seq<PathItem>, v: Option<Value>, lo: int, hi: int): (r: seq<Issue>)
    ensures r == [] <==> IsIntIn(v, lo, hi)
    ensures Under(r, path)
  {
    if !(v.Some? && v.value.JNumber?) then TypeIssue(path, v)
    else
      var n := v.value.n;
      (if IsInteger(n) then [] else [Issue(path, NotInteger)])
      + (if n < lo as real then [Issue(path, TooSmall)] else [])
      + (if n > hi as real then [Issue(path, TooBig)] else [])
  }

  predicate IsRealIn(v: Option<Value>, lo: real, hi: real) {
    v.Some? && v.value.JNumber? && lo <= v.value.n <= hi
  }

  /** `z.number().min(lo).max(hi)`. */
  function RealRangeIssues(path: seq<PathItem>, v: Option<Value>, lo: real, hi: real): (r: seq<Issue>)
    ensures r == [] <==> IsRealIn(v, lo, hi)
    ensures Under(r, path)
  {
    if !(v.Some? && v.value.JNumber?) then TypeIssue(path, v)
    else
      var n := v.value.n;
      (if n < lo then [Issue(path, TooSmall)] else [])
      + (if n > hi then [Issue(path, TooBig)] else [])
  }

  predicate AllStrings(items: seq<Value>) {
    forall i :: 0 <= i < |items| ==> items[i].JString?
  }

  predicate IsStringArray(v: Option<Value>) {
    v.Some? && v.value.JArray? && AllStrings(v.value.items)
  }

  /** One `InvalidType` issue per non-string element, at the element's index, in index order. */
  function ElementIssues(path: seq<PathItem>, items: seq<Value>, from: nat): (r: seq<Issue>)
    requires from <= |items|
    ensures r == [] <==> forall i :: from <= i < |items| ==> items[i].JString?
    ensures |r| <= |items| - from
    ensures forall k :: 0 <= k < |r| ==> exists i :: from <= i < |items| && !items[i].JString? && r[k] == Issue(path + [Index(i)], InvalidType)
    decreases |items| - from
  {
    if from == |items| then []
    else
      var rest := ElementIssues(path, items, from + 1);
      if items[from].JString? then rest else [Issue(path + [Index(from)], InvalidType)] + rest
  }

  /** `z.array(z.string())`. */
  function StringArrayIssues(path: seq<PathItem>, v: Option<Value>): (r: seq<Issue>)
    ensures r == [] <==> IsStringArray(v)
    ensures Under(r, path)
  {
    if !(v.Some? && v.value.JArray?) then TypeIssue(path, v)
    else
      var r := ElementIssues(path, v.value.items, 0);
      assert Under(r, path) by {
        forall k | 0 <= k < |r| ensures |path| <= |r[k].path| && r[k].path[..|path|] == path {
          var i :| 0 <= i < |v.value.items| && !v.value.items[i].JString? && r[k] == Issue(path + [Index(i)], InvalidType);
          assert (path + [Index(i)])[..|path|] == path;
        }
      }
      r
  }

  predicate IsOneOf(v: Option<Value>, options: seq<string>) {
    v.Some? && v.value.JString? && v.value.s in options
  }

  /** `z.enum(options)`: a non-string is a type issue, any other string outside the options an enum issue. */
  function EnumIssues(path: seq<PathItem>, v: Option<Value>, options: seq<string>): (r: seq<Issue>)
    ensures r == [] <==> IsOneOf(v, options)
    ensures |r| <= 1 && Under(r, path)
  {
    if !IsString(v) then TypeIssue(path, v)
    else if v.value.s in options then []
    else [Issue(path, InvalidEnumValue)]
  }

  predicate IsBool(v: Option<Value>) {
    v.Some? && v.value.JBool?
  }

  /** `z.boolean()`. */
  function BoolIssues(path: seq<PathItem>, v: Option<Value>): (r: seq<Issue>)
    ensures r == [] <==> IsBool(v)
    ensures |r| <= 1 && Under(r, path)
  {
    if IsBool(v) then [] else TypeIssue(path, v)
  }
}
